=== FILE: README.md ===
# WhatsApp review bot for Google Maps — a verified model

This project models the core of a WhatsApp bot that collects a review of a place through a conversation and posts it to Google Maps. It proves properties of that model. There are three parts:

- **Field validators** (`Validators`). This covers `validate_rating`, `validate_phone_number`, `validate_place_name` and `validate_review_text`. Each returns either the accepted, normalised value or the fixed Spanish error message. The conditions are checked in the order the Python code checks them.
- **The review dialogue** (`Bot`, `Replies`, `Scenarios`). `WhatsAppBot` keeps one session per sender in a map. `handle_incoming_message` is modelled as a pure step: store, allow-list, sender, body, attachments and browser behaviour in; the next store and the one reply out. A reply is a `Replies.Message`, and `Replies.Render` gives the exact text the Python handler returns for it.
- **Submission** (`Automation`). This covers `GoogleMapsAutomation.process_feedback` and `close`. The browser steps are given as a `Driver` value, which records what setup, login, search, submit and `driver.quit()` do on this run. The model returns the result together with the trace of browser operations performed.

Supporting modules:

- `Text` holds the Python string primitives the code relies on: whitespace, `str.strip()`, `str.lower()`, `str(int)`, `int(str)` and `'⭐' * n`.
- `Settings` holds the comma-split allow-list `ALLOWED_NUMBERS`.
- `ValidatorVectors` restates the cases pinned by the validator tests.

In some places the code behaves differently from the bot's intended design. The model follows the code:

- The bot stores the place name and the review text verbatim. It never calls the validators on them.
- The session is created before the allow-list check, so a refused sender still gets a fresh session.
- When submission raises, the session is kept and the internal-error reply is returned. `process_feedback` catches every `Exception` raised in its `try` block. The only `Exception` that can escape it is one raised by `driver.quit()` inside the `finally` clause.
- `int()` skips surrounding whitespace before parsing, so `" 4 "` is accepted as a rating. So are `"+4"` and `"04"`. The whitespace `int()` skips is the set `str.strip()` removes minus the four information separators U+001C..U+001F. A body holding one of those is never a number.
- `int()` refuses a literal of more than 4300 digits. This is CPython's default limit on integer-string conversion.

## Model

| member | source | states |
|---|---|---|
| Text.WhitespaceTable | src/utils/validators.py:34 | The whitespace set behind `str.strip()`, `\s` and `str.isspace`. Below U+0080 it is exactly the space, U+0009..U+000D and U+001C..U+001F. No digit and no sign is whitespace. |
| Text.Strip | src/utils/validators.py:60-63 | `str.strip()`: the input is whitespace, then the result, then whitespace. The result has no whitespace at either end, and it is empty exactly when the input is all whitespace. |
| Text.StripIdempotent | src/utils/validators.py:63 | Stripping twice is the same as stripping once. |
| Text.StripPadded | src/utils/validators.py:63 | Whitespace around a non-empty text with no whitespace at either end is exactly what stripping removes. |
| Text.NatToString | src/bot/whatsapp_bot.py:184 | `str(n)` of a count: decimal digits only, `"0"` exactly for zero, and no leading zero otherwise. |
| Text.DigitsValueOfNatToString | src/bot/whatsapp_bot.py:184 | Reading the digits of `str(n)` back gives `n`. |
| Text.NatToStringOfDigits | src/bot/whatsapp_bot.py:184 | Any digit run without a superfluous leading zero is `str()` of its value, so `str()` is the only such rendering. |
| Text.IntToString | src/utils/validators.py:15 | `str(n)` of any integer: a literal with a minus sign exactly when `n` is negative, never a plus sign, and digits worth the magnitude of `n` with no leading zero. |
| Text.ParseInt | src/utils/validators.py:15 | `int(s)` succeeds exactly when three things hold. The stripped text is an optional sign followed by decimal digits. It has at most 4300 digits. The input holds no information separator, because `int()` does not skip those. |
| Text.ParseIntPadded | src/utils/validators.py:15 | Any whitespace that `int()` skips, then an optional sign, then 1..4300 digits, then such whitespace, parses to the signed value of the digits. Leading zeros are allowed. |
| Text.ParseIntOfIntToString | src/utils/validators.py:15 | `int(str(n)) == n` for every integer of at most 4300 digits. |
| Text.ParseIntRejectsStrayCharacter | src/bot/whatsapp_bot.py:113 | A body holding any character that is not a digit, a sign or whitespace never parses. |
| Text.StripKeeps | src/utils/validators.py:63 | `str.strip()` keeps every character that is not whitespace. |
| Text.Lower | src/bot/whatsapp_bot.py:155-198 | `str.lower()` keeps the length. No capital is left. Every character that is not a capital is kept in place. |
| Text.LowerCharTo | src/bot/whatsapp_bot.py:155-198 | A character lower-cases to a non-capital `d` exactly when it is `d` or a capital form of `d`. |
| Text.LowerMatches | src/bot/whatsapp_bot.py:155-198 | A body lower-cases to a capital-free word exactly when it spells that word with any mix of capitals. |
| Validators.ValidateRating | src/utils/validators.py:14-21 | Accepts exactly the integers 1..5 and returns them. Any other integer gets the range message. Text that `int()` refuses gets the not-a-number message. Text that `int()` reads as `n` is accepted as `n` when `n` is in 1..5 and gets the range message otherwise. |
| Validators.ValidateRatingOfParse | src/utils/validators.py:14-21 | Text that `int()` reads as `n` gets the same verdict as the integer `n`. |
| Validators.ValidateRatingOfNumeral | src/utils/validators.py:14-21 | The decimal text of any integer is judged exactly like the integer itself. |
| Validators.ValidateRatingNonNumeric | src/utils/validators.py:20-21 | Text with a non-numeric character gets the not-a-number message. |
| Validators.ValidateRatingPadded | src/utils/validators.py:14-21 | Padded, signed or zero-prefixed decimal text gets the verdict of the integer it denotes. |
| Validators.ValidateRatingSeparator | src/utils/validators.py:20-21 | Text holding U+001C..U+001F anywhere gets the not-a-number message. |
| Validators.Clean | src/utils/validators.py:34 | Deleting whitespace, `-`, `(` and `)` leaves none of them. Input that has none of them is returned unchanged. |
| Validators.CleanConcat | src/utils/validators.py:34 | `re.sub` works piece by piece: cleaning `a + b` gives the cleaned `a` followed by the cleaned `b`. |
| Validators.CleanOne | src/utils/validators.py:34 | A single character is deleted exactly when it is whitespace, `-`, `(` or `)`. |
| Validators.CleanKeeps | src/utils/validators.py:34 | Every other character survives cleaning. |
| Validators.PhonePattern | src/utils/validators.py:37 | `re.match(r'^\+?[\d]+$', …)` holds exactly when the text is non-empty, every character is a digit except that the first may be `+`, and a `+` is followed by at least one digit. |
| Validators.ValidatePhoneNumber | src/utils/validators.py:34-48 | Accepted exactly when the cleaned text is an optional `+` followed by digits, with at least 10 characters. The invalid-characters check wins over the length check. The result is `+` followed by digits. |
| Validators.PhoneRejectsStrayCharacter | src/utils/validators.py:34-38 | A character that is not a digit, `+`, whitespace, `-`, `(` or `)` makes the number invalid with the invalid-characters message, wherever it stands. |
| Validators.PhoneKeepsDigits | src/utils/validators.py:34-48 | An accepted number is `+` followed by exactly the input's digits, in their order. |
| Validators.PhoneIdempotent | src/utils/validators.py:44-48 | Validating an accepted number again gives the same number. |
| Validators.ValidateStripped | src/utils/validators.py:60-71 | Accepted exactly when the stripped length is within the bounds. Blank input gets the empty message, then too short, then too long. An accepted value is the stripped input. |
| Validators.ValidatePlaceName | src/utils/validators.py:60-71 | The same, with bounds 2..100 and the place-name messages. |
| Validators.ValidateReviewText | src/utils/validators.py:83-94 | The same, with bounds 10..1000 and the review messages. |
| Validators.ValidateStrippedIdempotent | src/utils/validators.py:83-94 | An accepted text is accepted again, unchanged. |
| Validators.ValidateStrippedKeepsTrimmedText | src/utils/validators.py:83-94 | Text that is already trimmed and within bounds is returned as is. |
| ValidatorVectors.RatingVectors | tests/test_validators.py:15-22 | 1, 5 and "3" are accepted. 0 and 6 get the range message. "abc" gets the not-a-number message. |
| ValidatorVectors.RatingPaddedVector | src/utils/validators.py:14-17 | `" 4 "` is accepted as 4. |
| ValidatorVectors.RatingPlusVector | src/utils/validators.py:14-17 | `"+4"` is accepted as 4. |
| ValidatorVectors.RatingLeadingZeroVector | src/utils/validators.py:14-17 | `"04"` is accepted as 4. |
| ValidatorVectors.RatingSeparatorVector | src/utils/validators.py:14-21 | U+001C followed by `4` gets the not-a-number message. |
| ValidatorVectors.PhoneWithPlus | tests/test_validators.py:28 | "+1234567890" is accepted unchanged. |
| ValidatorVectors.PhoneWithoutPlus | tests/test_validators.py:29 | "1234567890" becomes "+1234567890". |
| ValidatorVectors.PhoneTooShortVector | tests/test_validators.py:33 | "123" is too short. |
| ValidatorVectors.PhoneLettersVector | tests/test_validators.py:34 | "abc123" has invalid characters. |
| ValidatorVectors.PlaceVectors | tests/test_validators.py:40-45 | "Restaurante ABC" is accepted. "" is empty. "A" is too short. |
| ValidatorVectors.PlacePaddedVector | tests/test_validators.py:41 | "  Café XYZ  " is accepted as "Café XYZ". |
| ValidatorVectors.ReviewVectors | tests/test_validators.py:51-56 | The sample review is accepted unchanged. "" is empty. "Bueno" is too short. |
| Automation.Teardown | google_maps_automation.py:165-168 | `close()` always runs, and it quits the browser exactly when one was created. |
| Automation.FirstFailure | google_maps_automation.py:175-184 | Reference reading of the step chain: the first step that does not pass decides the message. Success happens exactly when every step passes. |
| Automation.ProcessFeedback | google_maps_automation.py:170-189 | The result is the first failing step's message, the general error for an exception, or success exactly when every step passes. Steps run in pipeline order and stop at the first failure. `close()` runs exactly once on every path. Only an exception from `driver.quit()` escapes. |
| Settings.Split | src/config/settings.py:21 | `str.split(',')` gives one more piece than there are commas, and no piece holds a comma. |
| Settings.JoinSplit | src/config/settings.py:21 | Joining the pieces with commas gives back the text. |
| Settings.SplitJoin | src/config/settings.py:21 | Splitting comma-joined, comma-free pieces gives back the pieces. |
| Settings.AllowedNumbers | src/config/settings.py:21 | The list is never empty, and it is `['']` when the variable is unset. |
| Settings.AllowedNumbersIntended | src/bot/whatsapp_bot.py:57 | Corrected allow-list: the configured entries without empty ones. |
| Settings.UnsetIntendedIsEmpty | src/bot/whatsapp_bot.py:57 | With the variable unset, the corrected list is empty. |
| Bot.GetUserSession | src/bot/whatsapp_bot.py:25-36 | Returns the sender's session, creating an idle one when absent. Every other entry is left alone. |
| Bot.CommandMatch | src/bot/whatsapp_bot.py:155-198 | The no-photos, yes and no lists are matched exactly by bodies that spell one of their words with any mix of capitals. |
| Bot.HandleWelcome | src/bot/whatsapp_bot.py:74-86 | Only the state changes, to waiting for the place. The reply is the welcome. |
| Bot.HandlePlaceInput | src/bot/whatsapp_bot.py:88-106 | The body is stored verbatim as the place, and the state moves to waiting for the rating. Nothing else changes. |
| Bot.HandleRatingInput | src/bot/whatsapp_bot.py:108-134 | A body is accepted exactly when `validate_rating` accepts it. An accepted rating is stored and the state moves on. Anything else gives the fixed error and leaves the session unchanged. |
| Bot.HandleTextInput | src/bot/whatsapp_bot.py:136-149 | The body is stored verbatim as the text, and the state moves to waiting for photos. |
| Bot.HandlePhotosInput | src/bot/whatsapp_bot.py:151-173 | A "no photos" word wins over attachments and keeps the photos. Otherwise all attachments are appended in order. Otherwise the error is returned and the session is unchanged. |
| Bot.ShowConfirmation | src/bot/whatsapp_bot.py:175-190 | The rendered summary contains the session's place, its text and "<number of photos> imagen(es)". Its star glyphs are the heading's one, one per rating point, and any inside the place or text. |
| Bot.FeedbackOf | src/bot/whatsapp_bot.py:222-227 | `process_feedback` gets the session's place, rating and text. It gets the photos, or `None` exactly when there are none. |
| Bot.SubmitToGoogleMaps | src/bot/whatsapp_bot.py:210-252 | The session is deleted whenever `process_feedback` returns. The reply is success exactly when every browser step passed; otherwise it carries the pipeline's failure message. The session is kept, with the internal-error reply, exactly when the call raises. |
| Bot.HandleConfirmation | src/bot/whatsapp_bot.py:192-208 | A yes word submits. Otherwise a no word deletes the session with the cancel reply. Anything else keeps the session with the error reply. |
| Bot.Dispatch | src/bot/whatsapp_bot.py:60-72 | Every handler keeps a session well formed: the rating is in 1..5 and fields are filled in state order. The state never moves back, nothing stored is lost, and only the confirmation stage deletes. |
| Bot.Authorized | src/bot/whatsapp_bot.py:57 | An empty allow-list admits every sender. A non-empty one admits exactly its members. |
| Bot.DispatchRecordsInput | src/bot/whatsapp_bot.py:74-149 | A new session gets the welcome and waits for the place. At the place stage, the body is stored as the place and echoed, and the session waits for the rating. At the text stage, the body is stored as the review text, and the session waits for photos. |
| Bot.DispatchRating | src/bot/whatsapp_bot.py:108-134 | At the rating stage the session advances exactly when `validate_rating` accepts the body. The accepted value is stored and shown. A refused body leaves the session as it was, with the rating error. |
| Bot.DispatchPhotos | src/bot/whatsapp_bot.py:151-190 | At the photos stage, a no-photos word or any attachment moves the session to confirmation. Attachments are appended to the stored photos, and the reply is the summary with the new photo count. Otherwise the session is kept as it was, with the photos error. |
| Bot.DispatchConfirm | src/bot/whatsapp_bot.py:192-252 | A yes word submits. The session is dropped unless closing the browser raises, and that case gets the internal error. The reply says "submitted" with the place when every step passed, and otherwise reports the failing step's message. A no word drops the session with the cancel message. Anything else keeps it, with the confirmation error. |
| Bot.AuthorizedStep | src/bot/whatsapp_bot.py:52-72 | For an admitted sender, the reply is the handler's reply. A kept session replaces the sender's entry, and a dropped one removes it. No other entry changes. |
| Bot.HandleIncomingMessage | src/bot/whatsapp_bot.py:52-72 | Only the sender's entry changes. The refusal is sent exactly when the allow-list is non-empty and lacks the sender; then the session does not move. |
| Text.Repeat | src/bot/whatsapp_bot.py:125 | `c * n` is `n` copies of `c`, and the empty string when `n <= 0`. |
| Text.CountRepeat | src/bot/whatsapp_bot.py:125 | `c * n` holds `c` exactly `n` times, and no time when `n <= 0`. |
| Replies.Stars | src/bot/whatsapp_bot.py:182 | `'⭐' * n` has length `n` and holds `n` star glyphs, and none when `n <= 0`. |
| Replies.Render | src/bot/whatsapp_bot.py:58-252 | The text of a reply. The place prompt contains the place between asterisks. The rating reply holds one star glyph per rating point. The summary contains the place, the text and "<n> imagen(es)", and counts its stars as above. The success reply contains the place between asterisks. The failure reply contains "Error: <message>" on its own line. |
| Replies.AskRatingEchoesPlace | src/bot/whatsapp_bot.py:94-103 | The reply to a place name contains it between asterisks. |
| Replies.AskTextStars | src/bot/whatsapp_bot.py:124-131 | The reply to an accepted rating contains exactly that many star glyphs. |
| Replies.SummaryEchoesPlace | src/bot/whatsapp_bot.py:179-187 | The summary contains the place. |
| Replies.SummaryEchoesText | src/bot/whatsapp_bot.py:179-187 | The summary contains the review text. |
| Replies.SummaryEchoesPhotos | src/bot/whatsapp_bot.py:179-187 | The summary contains "<number of photos> imagen(es)". |
| Replies.SummaryStars | src/bot/whatsapp_bot.py:179-187 | The summary's star glyphs are the heading's one, one per rating point, and any inside the place or text. |
| Replies.SubmittedEchoesPlace | src/bot/whatsapp_bot.py:229-234 | The success reply contains the place between asterisks. |
| Replies.SubmitFailedEmbedsReason | src/bot/whatsapp_bot.py:236-240 | The failure reply carries "Error: <pipeline message>". |
| Scenarios.RunAll | src/bot/whatsapp_bot.py:52-72 | Over any sequence of messages, every session in the store stays well formed, and there is one reply per message. |
| Scenarios.StepPreservesWellFormed | src/bot/whatsapp_bot.py:52-72 | One step keeps every session in the store well formed. |
| Scenarios.RefusedSenderNeverProgresses | src/bot/whatsapp_bot.py:54-58 | A refused sender's session never moves, whatever anyone sends, and each of its messages gets the refusal. |
| Scenarios.RefusedStep | src/bot/whatsapp_bot.py:54-58 | One message, from anyone, leaves a refused sender's session as it was. A message from that sender gets the refusal. |
| Scenarios.SilentSenderUntouched | src/bot/whatsapp_bot.py:25-36 | A sender who sends nothing keeps its session exactly. |
| Scenarios.UnsetAllowListRefusesEveryone | src/config/settings.py:21 | As written: with the variable unset, every sender with a non-empty number is refused. |
| Scenarios.UnsetIntendedAllowListAdmitsEveryone | src/bot/whatsapp_bot.py:57 | Corrected: with the variable unset, nobody is refused. |
| Scenarios.IntendedAllowListAgrees | src/bot/whatsapp_bot.py:57 | If at least one configured entry is non-empty, the corrected list gives every real number the same verdict as the list as written. |
| Scenarios.FirstMessageWelcomes | src/bot/whatsapp_bot.py:61-62 | A first message gets the welcome and moves the new session to waiting for the place. This holds for any allow-list that admits the sender. |
| Scenarios.PlaceNameEchoed | src/bot/whatsapp_bot.py:88-106 | "Café Luna" is stored and echoed, and the state moves to waiting for the rating. This holds for any allow-list that admits the sender. |
| Scenarios.SeparatorRatingRefused | src/bot/whatsapp_bot.py:112-119 | U+001C followed by `4` gives the rating error, and the store is unchanged. This holds for any allow-list that admits the sender. |
| Scenarios.RatingOutOfRangeRefused | src/bot/whatsapp_bot.py:112-119 | "7" gives the rating error, and the store is unchanged. This holds for any allow-list that admits the sender. |
| Scenarios.RatingFourAccepted | src/bot/whatsapp_bot.py:121-134 | "4" is stored, and the reply shows four stars. This holds for any allow-list that admits the sender. |
| Scenarios.CapitalisedCommands | src/bot/whatsapp_bot.py:155-198 | "SÍ" is an affirmative word, "NO" a negative one and "Sin Fotos" a no-photos word, after lower-casing. |
| Scenarios.NoPhotosStep | src/bot/whatsapp_bot.py:155-157 | "no" moves the session to confirmation, and the reply summarises it with no photos. This holds for any allow-list that admits the sender. |
| Scenarios.ZeroPhotosSummary | src/bot/whatsapp_bot.py:179-187 | A summary with no photos shows the place, the text and "0 imagen(es)". |
| Scenarios.NoPhotosShowsSummary | src/bot/whatsapp_bot.py:155-157 | After "no", the reply shows the place, the text and "0 imagen(es)". This holds for any allow-list that admits the sender. |
| Scenarios.CancelThenStartOver | src/bot/whatsapp_bot.py:198-204 | "cancelar" deletes the session, and the next message gets the welcome. This holds for any allow-list that admits the sender. |
| Scenarios.TextStored | src/bot/whatsapp_bot.py:136-149 | For any text, at the text stage, the text is stored verbatim and the session moves to waiting for photos. The reply asks for photos, and no other entry changes. |
| Scenarios.YesSubmits | src/bot/whatsapp_bot.py:192-252 | For any yes word at the confirmation, the sender's entry is removed unless closing the browser raises. If it raises, the store is unchanged and the reply is the internal error. The reply reports success with the place or the failing step's message. |

## Left out

- Sending replies through Twilio (`send_message`, `Client`) is not modelled. The reply is the step's result instead.
- The Flask webhook (`app.py`), the launcher (`run_bot.py`) and logging (`src/utils/logger.py`) are HTTP plumbing and I/O.
- The Selenium bodies of `setup_driver`, `login_to_google`, `search_place` and `submit_review` are not modelled. Each becomes an outcome in `Automation.Driver`.
- Automation.ProcessFeedback: `except Exception` does not catch `BaseException`-only exceptions such as `KeyboardInterrupt` or `SystemExit`. Those are not modelled.
- The `GoogleMapsAutomation` constructor and the Google credentials are left out. An exception from the constructor is not modelled.
- `created_at` (a wall-clock value that no logic reads) is left out.
- All environment reading except `ALLOWED_NUMBERS` is left out. `ALLOWED_NUMBERS` enters as an `Option<string>`.
- Text.ParseInt: accepts only ASCII digits. Python's `int()` also accepts non-ASCII decimal digits and underscores between digits.
- Text.ParseInt: the 4300-digit limit is CPython's default. A limit changed through `sys.set_int_max_str_digits` is not modelled.
- Text.IntToString: Python's `str()` raises `ValueError` past 4300 digits, which is not modelled. So `ParseIntOfIntToString` and `ValidateRatingOfNumeral` are stated only within that limit.
- Text.Lower: maps only ASCII capitals, Latin-1 capitals and the Kelvin sign. These are all the characters whose lower case appears in a command word. Other characters are kept as they are.
- Validators.PhonePattern: `\d` is read as the ASCII digits. Python's `re` also matches other Unicode decimal digits.
- Validators.ValidateRating: takes only an `int` or a `str`. The `TypeError` branch for other argument types is not modelled.
- ValidatorVectors: `PhoneWithoutPlus` and `ReviewVectors` take their literal through a parameter fixed by `requires`. Stating the literal directly costs the verifier too much.
- ValidatorVectors: the test case `"+1 (234) 567-890"` has no concrete lemma of its own. Evaluating the cleaning step on that literal costs the verifier too much. `PhoneKeepsDigits` states the general rule it is an instance of.
- Bot.HandleIncomingMessage: requires the sender's stored session to be well formed, which holds for every reachable store (`Scenarios.RunAll`). On an ill-formed store, `show_confirmation` would raise `TypeError`.
- Bot.HandlePhotosInput: requires a stored rating, for the same reason.
- A missing `media_urls` (`None`) is modelled as the empty list. Both are false in Python's `elif media_urls`.

## Findings

| source | as written | input that shows it | evidently intended | confidence | as-written member | corrected member |
|---|---|---|---|---|---|---|
| src/config/settings.py:21 | With `ALLOWED_NUMBERS` unset, the split of the empty default gives `['']`. That list is non-empty, so the guard at src/bot/whatsapp_bot.py:57 refuses every sender. | `ALLOWED_NUMBERS` unset, a message from `+34600000000` | An unset or empty variable means no restriction: empty entries are dropped and the empty list admits everyone | high, not executed | Scenarios.UnsetAllowListRefusesEveryone | Settings.AllowedNumbersIntended |

=== FILE: automation.dfy ===
/**
 * `GoogleMapsAutomation.process_feedback` and `close` from
 * `google_maps_automation.py`. The browser steps (`setup_driver`,
 * `login_to_google`, `search_place`, `submit_review`, `driver.quit`) are not
 * modelled; what each of them does on one run is given as a `Driver` value,
 * and the model records the order in which the steps are attempted.
 */
module Automation {
  import opened Optional

  /** `setup_driver` either returns, or raises; it may raise after the browser
      was already started (and assigned to `self.driver`). */
  datatype SetupOutcome = SetupOk | SetupRaises(message: string, driverCreated: bool)

  /** `login_to_google`, `search_place` and `submit_review` return a boolean;
      an exception escaping one of them is also allowed for. */
  datatype StepOutcome = Passed | Failed | Raises(message: string)

  /** `driver.quit()` either returns or raises. */
  datatype QuitOutcome = QuitOk | QuitRaises(message: string)

  /** How the browser behaves on one run of `process_feedback`. */
  datatype Driver = Driver(
    setup: SetupOutcome,
    login: StepOutcome,
    search: StepOutcome,
    submit: StepOutcome,
    quit: QuitOutcome)

  /** The arguments of `process_feedback`. */
  datatype Feedback = Feedback(
    place: Option<string>,
    rating: Option<int>,
    text: Option<string>,
    photos: Option<seq<string>>)

  /** The browser operations a run performs, in the order performed. */
  datatype Event = SetupDriver | Login | SearchPlace(place: Option<string>) | SubmitReview(feedback: Feedback) | Close | QuitDriver

  /** `process_feedback` either returns a `(success, message)` pair or lets an
      exception escape. */
  datatype Result = Returned(success: bool, message: string) | Raised(message: string)

  datatype Run = Run(result: Result, trace: seq<Event>)

  const SuccessMessage := "Reseña enviada exitosamente"
  const LoginError := "Error en el login de Google"
  const SearchError := "Error buscando el lugar"
  const SubmitError := "Error enviando la reseña"

  function GeneralError(m: string): string {
    "Error general: " + m
  }

  /** `self.driver` is set once `setup_driver` got as far as starting Chrome. */
  predicate DriverCreated(d: Driver) {
    d.setup.SetupOk? || d.setup.driverCreated
  }

  /** The fixed order of the four steps for one review. */
  function Pipeline(f: Feedback): seq<Event> {
    [SetupDriver, Login, SearchPlace(f.place), SubmitReview(f)]
  }

  /** `close()`: always recorded, and quits the browser only when one exists. */
  function Teardown(d: Driver): (t: seq<Event>)
    ensures |t| > 0 && t[0] == Close && Close !in t[1..]
    ensures QuitDriver in t <==> DriverCreated(d)
  {
    if DriverCreated(d) then [Close, QuitDriver] else [Close]
  }

  /** What one step contributes when it does not pass: the value the `try`
      block returns. `None` means the step passed and the next one runs. */
  function Stop(o: StepOutcome, failure: string): Option<Result> {
    match o
    case Passed => None
    case Failed => Some(Returned(false, failure))
    case Raises(m) => Some(Returned(false, GeneralError(m)))
  }

  /** The `try` block of `process_feedback`: the value it returns and the
      steps it attempts, up to the first one that does not pass. */
  function Attempt(d: Driver, f: Feedback): (Result, seq<Event>) {
    match d.setup
    case SetupRaises(m, _) => (Returned(false, GeneralError(m)), Pipeline(f)[..1])
    case SetupOk =>
      match Stop(d.login, LoginError)
      case Some(r) => (r, Pipeline(f)[..2])
      case None =>
        match Stop(d.search, SearchError)
        case Some(r) => (r, Pipeline(f)[..3])
        case None =>
          match Stop(d.submit, SubmitError)
          case Some(r) => (r, Pipeline(f))
          case None => (Returned(true, SuccessMessage), Pipeline(f))
  }

  /** Reference reading of the three boolean steps: the first one that does
      not pass decides the answer, and if all pass the review was sent. */
  function FirstFailure(steps: seq<(StepOutcome, string)>): (r: Result)
    ensures r.Returned?
    ensures r.success <==> forall i :: 0 <= i < |steps| ==> steps[i].0.Passed?
  {
    if |steps| == 0 then
      Returned(true, SuccessMessage)
    else
      match steps[0].0
      case Passed => FirstFailure(steps[1..])
      case Failed => Returned(false, steps[0].1)
      case Raises(m) => Returned(false, GeneralError(m))
  }

  /** What `process_feedback` should answer when the browser behaves as `d`,
      before `close()` has had its say. */
  function Expected(d: Driver): Result {
    match d.setup
    case SetupRaises(m, _) => Returned(false, GeneralError(m))
    case SetupOk => FirstFailure([(d.login, LoginError), (d.search, SearchError), (d.submit, SubmitError)])
  }

  predicate AllPass(d: Driver) {
    d.setup.SetupOk? && d.login.Passed? && d.search.Passed? && d.submit.Passed?
  }

  /** `process_feedback(place_name, rating, text, photos)`. The `finally`
      clause runs `close()` on every path; an exception from `driver.quit()`
      replaces whatever the `try` block returned. */
  function ProcessFeedback(d: Driver, f: Feedback): (r: Run)
    // The answer is the first failing step's message, or success.
    ensures r.result == if DriverCreated(d) && d.quit.QuitRaises? then Raised(d.quit.message) else Expected(d)
    ensures r.result == Returned(true, SuccessMessage) <==> AllPass(d) && d.quit.QuitOk?
    ensures r.result.Raised? <==> DriverCreated(d) && d.quit.QuitRaises?
    // The steps run in pipeline order, stopping at the first that does not pass, then `close()`.
    ensures exists k :: 1 <= k <= 4 && r.trace == Pipeline(f)[..k] + Teardown(d)
    ensures Login in r.trace <==> d.setup.SetupOk?
    ensures SearchPlace(f.place) in r.trace <==> d.setup.SetupOk? && d.login.Passed?
    ensures SubmitReview(f) in r.trace <==> d.setup.SetupOk? && d.login.Passed? && d.search.Passed?
    // `close()` runs exactly once, and quits the browser only if there is one.
    ensures multiset(r.trace)[Close] == 1
    ensures QuitDriver in r.trace <==> DriverCreated(d)
  {
    var (value, steps) := Attempt(d, f);
    var result := if DriverCreated(d) && d.quit.QuitRaises? then Raised(d.quit.message) else value;
    var trace := steps + Teardown(d);
    AttemptFacts(d, f);
    TraceFacts(steps, d);
    Run(result, trace)
  }

  /** Appending `close()` to steps that neither close nor quit. */
  lemma TraceFacts(steps: seq<Event>, d: Driver)
    requires Close !in steps && QuitDriver !in steps
    ensures multiset(steps + Teardown(d))[Close] == 1
    ensures QuitDriver in steps + Teardown(d) <==> DriverCreated(d)
    ensures forall e :: e != Close && e != QuitDriver ==> (e in steps + Teardown(d) <==> e in steps)
  {
    var t := Teardown(d);
    assert multiset(steps)[Close] == 0;
    assert multiset(t)[Close] == 1;
    assert multiset(steps + t) == multiset(steps) + multiset(t);
  }

  lemma AttemptFacts(d: Driver, f: Feedback)
    ensures Attempt(d, f).0 == Expected(d)
    ensures exists k :: 1 <= k <= 4 && Attempt(d, f).1 == Pipeline(f)[..k]
    ensures Login in Attempt(d, f).1 <==> d.setup.SetupOk?
    ensures SearchPlace(f.place) in Attempt(d, f).1 <==> d.setup.SetupOk? && d.login.Passed?
    ensures SubmitReview(f) in Attempt(d, f).1 <==> d.setup.SetupOk? && d.login.Passed? && d.search.Passed?
    ensures Close !in Attempt(d, f).1 && QuitDriver !in Attempt(d, f).1
  {
    var p := Pipeline(f);
    assert p[..1] == [SetupDriver];
    assert p[..2] == [SetupDriver, Login];
    assert p[..3] == [SetupDriver, Login, SearchPlace(f.place)];
    assert p[..4] == p;
    if d.setup.SetupOk? {
      var steps := [(d.login, LoginError), (d.search, SearchError), (d.submit, SubmitError)];
      assert steps[1..] == [(d.search, SearchError), (d.submit, SubmitError)];
      assert steps[1..][1..] == [(d.submit, SubmitError)];
      assert steps[1..][1..][1..] == [];
      if d.login.Passed? {
        assert FirstFailure(steps) == FirstFailure(steps[1..]);
        if d.search.Passed? {
          assert FirstFailure(steps[1..]) == FirstFailure(steps[1..][1..]);
          if d.submit.Passed? {
            assert FirstFailure(steps[1..][1..]) == FirstFailure([]);
          }
        }
      }
    }
  }
}

=== FILE: bot.dfy ===
/**
 * The review dialogue of `WhatsAppBot` (`src/bot/whatsapp_bot.py`): a store
 * of per-sender sessions and one pure step, `HandleIncomingMessage`, that
 * maps a store and one inbound message to the next store and the single reply
 * the bot sends back. Sending the reply over Twilio is not modelled; the reply
 * is the step's result. Submission calls `Automation.ProcessFeedback`, with the
 * browser's behaviour on that run given as a parameter.
 */
module Bot {
  import opened Optional
  import opened Text
  import opened Replies
  import Validators
  import Automation

  // ---------------------------------------------------------------------------
  // Sessions
  // ---------------------------------------------------------------------------

  /** The session `state`: `Idle` is Python's `None`, the others are the five
      state constants of `Config`. */
  datatype Stage = Idle | WaitingForPlace | WaitingForRating | WaitingForText | WaitingForPhotos | Confirming

  /** Position of a stage in the dialogue. */
  function Rank(st: Stage): nat {
    match st
    case Idle => 0
    case WaitingForPlace => 1
    case WaitingForRating => 2
    case WaitingForText => 3
    case WaitingForPhotos => 4
    case Confirming => 5
  }

  /** One sender's session record; `created_at` is left out. */
  datatype Session = Session(
    stage: Stage,
    place: Option<string>,
    rating: Option<int>,
    text: Option<string>,
    photos: seq<string>)

  /** `self.sessions`: sender number to session. */
  type Store = map<string, Session>

  const NewSession := Session(Idle, None, None, None, [])

  /** What every reachable session satisfies: a stored rating lies in 1..5,
      and the fields are filled in dialogue order, each exactly from the
      stage after the one that asks for it. */
  predicate WellFormed(s: Session) {
    && (s.rating.Some? ==> 1 <= s.rating.value <= 5)
    && (s.place.Some? <==> Rank(s.stage) >= Rank(WaitingForRating))
    && (s.rating.Some? <==> Rank(s.stage) >= Rank(WaitingForText))
    && (s.text.Some? <==> Rank(s.stage) >= Rank(WaitingForPhotos))
    && (|s.photos| > 0 ==> s.stage == Confirming)
  }

  predicate StoreWellFormed(store: Store) {
    forall k :: k in store ==> WellFormed(store[k])
  }

  /** The session a sender has, or the one `get_user_session` would create. */
  function SessionOf(store: Store, sender: string): Session {
    if sender in store then store[sender] else NewSession
  }

  /** `get_user_session`: the sender's session, created in state `None` when
      absent; every other entry is left alone. */
  function GetUserSession(store: Store, sender: string): (r: (Store, Session))
    ensures sender in r.0 && r.0[sender] == r.1
    ensures r.1 == SessionOf(store, sender)
    ensures r.0.Keys == store.Keys + {sender}
    ensures forall k :: k in store ==> r.0[k] == store[k]
  {
    if sender in store then (store, store[sender])
    else (store[sender := NewSession], NewSession)
  }

  // ---------------------------------------------------------------------------
  // Commands
  // ---------------------------------------------------------------------------

  /** Commands, compared with the lower-cased message body. */
  const NoPhotoWords := ["sin fotos", "no", "nada"]
  const YesWords := ["sí", "si", "yes", "ok", "confirmar"]
  const NoWords := ["no", "cancelar", "cancel"]

  /** Every command word is already in lower case. */
  predicate LowerCaseWords(words: seq<string>) {
    forall k, i :: 0 <= k < |words| && 0 <= i < |words[k]| ==> !IsCapital(words[k][i])
  }

  /** A body matches a command list exactly when it spells one of its words
      with any mix of capitals. */
  lemma CommandMatch(body: string, words: seq<string>)
    requires words == NoPhotoWords || words == YesWords || words == NoWords
    ensures Lower(body) in words <==> exists k :: 0 <= k < |words| && SameIgnoringCase(body, words[k])
  {
    assert LowerCaseWords(words);
    forall k | 0 <= k < |words| ensures Lower(body) == words[k] <==> SameIgnoringCase(body, words[k]) {
      LowerMatches(body, words[k]);
    }
  }

  // ---------------------------------------------------------------------------
  // Handlers
  // ---------------------------------------------------------------------------

  /** What a handler does to the sender's session: keep it (possibly updated)
      or delete it, and the one reply it returns. */
  datatype Transition = Keep(session: Session, reply: Message) | Drop(reply: Message)

  /** `handle_welcome`: only the stage changes. */
  function HandleWelcome(s: Session): (t: Transition)
    ensures t.Keep? && t.reply == Welcome
    ensures t.session.stage == WaitingForPlace && t.session.(stage := s.stage) == s
  {
    Keep(s.(stage := WaitingForPlace), Welcome)
  }

  /** `handle_place_input`: the body is stored verbatim, without stripping or
      validation, and echoed in the reply. */
  function HandlePlaceInput(s: Session, body: string): (t: Transition)
    ensures t.Keep? && t.session.stage == WaitingForRating && t.session.place == Some(body)
    ensures t.session.(stage := s.stage, place := s.place) == s
    ensures t.reply == AskRating(body)
  {
    Keep(s.(place := Some(body), stage := WaitingForRating), AskRating(body))
  }

  /** `handle_rating_input`: accepts exactly what `validate_rating` accepts;
      an accepted rating is stored and echoed, anything else leaves the session
      as it was. */
  function HandleRatingInput(s: Session, body: string): (t: Transition)
    ensures t.Keep?
    ensures match Validators.ValidateRating(Validators.StrArg(body))
            case Valid(n) => t == Keep(s.(rating := Some(n), stage := WaitingForText), AskText(n))
            case Invalid(_) => t == Keep(s, RatingError)
  {
    match ParseInt(body)
    case Some(n) =>
      if 1 <= n <= 5 then Keep(s.(rating := Some(n), stage := WaitingForText), AskText(n))
      else Keep(s, RatingError)
    case None => Keep(s, RatingError)
  }

  /** `handle_text_input`: the body is stored verbatim; the review-text
      validator is not applied. */
  function HandleTextInput(s: Session, body: string): (t: Transition)
    ensures t.Keep? && t.reply == AskPhotos
    ensures t.session.stage == WaitingForPhotos && t.session.text == Some(body)
    ensures t.session.(stage := s.stage, text := s.text) == s
  {
    Keep(s.(text := Some(body), stage := WaitingForPhotos), AskPhotos)
  }

  /** `show_confirmation`: the summary the user is asked to confirm shows the
      session's place and text, "<number of photos> imagen(es)", and one star
      glyph per rating point besides the heading's own (and any the place or
      text contain). */
  function ShowConfirmation(s: Session): (m: Message)
    requires s.rating.Some?
    ensures Infix(Show(s.place), Render(m)) && Infix(Show(s.text), Render(m))
    ensures Infix(NatToString(|s.photos|) + PhotoUnit, Render(m))
    ensures Count(Render(m), Star) == 1 + (if s.rating.value <= 0 then 0 else s.rating.value)
                                      + Count(Show(s.place), Star) + Count(Show(s.text), Star)
  {
    Summary(s.place, s.rating.value, s.text, |s.photos|)
  }

  /** `handle_photos_input`: a "no photos" word wins over attachments; else
      every attachment is appended in order; else the session stays as it was. */
  function HandlePhotosInput(s: Session, body: string, media: seq<string>): (t: Transition)
    requires s.rating.Some?
    ensures t.Keep?
    ensures Lower(body) in NoPhotoWords ==>
              t.session == s.(stage := Confirming) && t.reply == ShowConfirmation(t.session)
    ensures Lower(body) !in NoPhotoWords && |media| > 0 ==>
              t.session == s.(photos := s.photos + media, stage := Confirming)
              && t.reply == ShowConfirmation(t.session)
    ensures Lower(body) !in NoPhotoWords && |media| == 0 ==> t == Keep(s, PhotosError)
  {
    if Lower(body) in NoPhotoWords then
      var s' := s.(stage := Confirming);
      Keep(s', ShowConfirmation(s'))
    else if |media| > 0 then
      var s' := s.(photos := s.photos + media, stage := Confirming);
      Keep(s', ShowConfirmation(s'))
    else
      Keep(s, PhotosError)
  }

  /** The arguments `submit_to_google_maps` passes to `process_feedback`: the
      session's place, rating and text, and its photos, with an empty list
      passed as `None`. */
  function FeedbackOf(s: Session): (f: Automation.Feedback)
    ensures f.place == s.place && f.rating == s.rating && f.text == s.text
    ensures f.photos.None? <==> |s.photos| == 0
    ensures f.photos.GetOr([]) == s.photos
  {
    Automation.Feedback(s.place, s.rating, s.text, if |s.photos| > 0 then Some(s.photos) else None)
  }

  /** `submit_to_google_maps`. Whenever `process_feedback` returns, the session
      is deleted and the reply reports success or carries the failure message;
      when it raises, the session is kept and the internal-error reply is sent. */
  function SubmitToGoogleMaps(s: Session, d: Automation.Driver): (t: Transition)
    ensures t.Keep? <==> Automation.DriverCreated(d) && d.quit.QuitRaises?
    ensures t.Keep? ==> t == Keep(s, InternalError)
    ensures t.Drop? && Automation.AllPass(d) ==> t.reply == Submitted(s.place)
    ensures t.Drop? && !Automation.AllPass(d) ==> t.reply == SubmitFailed(Automation.Expected(d).message)
  {
    var run := Automation.ProcessFeedback(d, FeedbackOf(s));
    match run.result
    case Returned(success, message) =>
      Drop(if success then Submitted(s.place) else SubmitFailed(message))
    case Raised(_) =>
      Keep(s, InternalError)
  }

  /** `handle_confirmation`: an affirmative word submits, a negative word
      deletes the session, anything else leaves it as it was. */
  function HandleConfirmation(s: Session, body: string, d: Automation.Driver): (t: Transition)
    ensures Lower(body) in YesWords ==> t == SubmitToGoogleMaps(s, d)
    ensures Lower(body) !in YesWords && Lower(body) in NoWords ==> t == Drop(Cancelled)
    ensures Lower(body) !in YesWords && Lower(body) !in NoWords ==> t == Keep(s, ConfirmError)
  {
    if Lower(body) in YesWords then SubmitToGoogleMaps(s, d)
    else if Lower(body) in NoWords then Drop(Cancelled)
    else Keep(s, ConfirmError)
  }

  // ---------------------------------------------------------------------------
  // The step
  // ---------------------------------------------------------------------------

  /** The allow-list guard `ALLOWED_NUMBERS and from_number not in
      ALLOWED_NUMBERS`, negated: an empty list admits everyone, a non-empty
      one exactly its members. */
  function Authorized(allowed: seq<string>, sender: string): (ok: bool)
    ensures |allowed| == 0 ==> ok
    ensures |allowed| > 0 ==> (ok <==> sender in allowed)
  {
    !(|allowed| > 0 && sender !in allowed)
  }

  /** The dispatch on the session state in `handle_incoming_message`. */
  function Dispatch(s: Session, body: string, media: seq<string>, d: Automation.Driver): (t: Transition)
    requires WellFormed(s)
    ensures t.Keep? ==> WellFormed(t.session)
    ensures t.Keep? ==> Rank(s.stage) <= Rank(t.session.stage)
    ensures t.Drop? ==> s.stage == Confirming
    ensures t.Keep? ==> Follows(s, t.session)
    ensures !t.reply.Unauthorized?
  {
    match s.stage
    case Idle => HandleWelcome(s)
    case WaitingForPlace => HandlePlaceInput(s, body)
    case WaitingForRating => HandleRatingInput(s, body)
    case WaitingForText => HandleTextInput(s, body)
    case WaitingForPhotos => HandlePhotosInput(s, body, media)
    case Confirming => HandleConfirmation(s, body, d)
  }

  /** What the dispatch does at the stages that record the body as it is:
      the welcome, the place and the review text. */
  lemma DispatchRecordsInput(s: Session, body: string, media: seq<string>, d: Automation.Driver)
    requires WellFormed(s)
    ensures var t := Dispatch(s, body, media, d);
            s.stage == Idle ==> t == Keep(s.(stage := WaitingForPlace), Welcome)
    ensures var t := Dispatch(s, body, media, d);
            s.stage == WaitingForPlace ==>
              t == Keep(s.(place := Some(body), stage := WaitingForRating), AskRating(body))
    ensures var t := Dispatch(s, body, media, d);
            s.stage == WaitingForText ==>
              t == Keep(s.(text := Some(body), stage := WaitingForPhotos), AskPhotos)
  {
  }

  /** At the rating stage the session advances exactly when `validate_rating`
      accepts the body, storing the accepted value. */
  lemma DispatchRating(s: Session, body: string, media: seq<string>, d: Automation.Driver)
    requires WellFormed(s) && s.stage == WaitingForRating
    ensures var t := Dispatch(s, body, media, d);
            var v := Validators.ValidateRating(Validators.StrArg(body));
            && (v.Valid? ==> t == Keep(s.(rating := Some(v.value), stage := WaitingForText), AskText(v.value)))
            && (v.Invalid? ==> t == Keep(s, RatingError))
  {
  }

  /** At the photos stage the session moves to the confirmation exactly when
      the body declines photos or attachments came, and the reply then
      summarises the session. */
  lemma DispatchPhotos(s: Session, body: string, media: seq<string>, d: Automation.Driver)
    requires WellFormed(s) && s.stage == WaitingForPhotos
    ensures var t := Dispatch(s, body, media, d);
            && t.Keep?
            && (Lower(body) in NoPhotoWords ==> t.session == s.(stage := Confirming))
            && (Lower(body) !in NoPhotoWords && |media| > 0 ==>
                  t.session == s.(photos := s.photos + media, stage := Confirming))
            && (Lower(body) in NoPhotoWords || |media| > 0 ==>
                  t.reply == Summary(s.place, s.rating.value, s.text, |t.session.photos|))
            && (Lower(body) !in NoPhotoWords && |media| == 0 ==> t == Keep(s, PhotosError))
  {
  }

  /** At the confirmation a yes word submits: the session is dropped unless
      `driver.quit()` raises, and the reply reports success or the pipeline's
      failure. A no word drops the session; anything else keeps it. */
  lemma DispatchConfirm(s: Session, body: string, media: seq<string>, d: Automation.Driver)
    requires WellFormed(s) && s.stage == Confirming
    ensures var t := Dispatch(s, body, media, d);
            Lower(body) in YesWords ==>
              && (t.Keep? <==> Automation.DriverCreated(d) && d.quit.QuitRaises?)
              && (t.Keep? ==> t == Keep(s, InternalError))
              && (t.Drop? && Automation.AllPass(d) ==> t.reply == Submitted(s.place))
              && (t.Drop? && !Automation.AllPass(d) ==> t.reply == SubmitFailed(Automation.Expected(d).message))
    ensures var t := Dispatch(s, body, media, d);
            Lower(body) !in YesWords ==>
              t == if Lower(body) in NoWords then Drop(Cancelled) else Keep(s, ConfirmError)
  {
  }

  /** `s'` keeps everything `s` already holds: set fields keep their value and
      photos are only ever appended. */
  predicate Follows(s: Session, s': Session) {
    && (s.place.Some? ==> s'.place == s.place)
    && (s.rating.Some? ==> s'.rating == s.rating)
    && (s.text.Some? ==> s'.text == s.text)
    && |s.photos| <= |s'.photos| && s'.photos[..|s.photos|] == s.photos
  }

  /** The store after the step, and the reply returned for the message. */
  datatype Reply = Reply(store: Store, message: Message)

  /** `handle_incoming_message(from_number, message_body, media_urls)`. The
      session is looked up (and created) before the allow-list check, so a
      refused sender still gets an idle session. */
  function HandleIncomingMessage(store: Store, allowed: seq<string>, sender: string, body: string,
                                 media: seq<string>, d: Automation.Driver): (r: Reply)
    requires sender in store ==> WellFormed(store[sender])
    // Only the sender's entry can change.
    ensures forall k :: k != sender ==> (k in r.store <==> k in store)
    ensures forall k :: k != sender && k in store ==> r.store[k] == store[k]
    // The sender's session stays well formed, moves forward and loses nothing.
    ensures sender in r.store ==> WellFormed(r.store[sender])
    ensures sender in r.store ==> Rank(SessionOf(store, sender).stage) <= Rank(r.store[sender].stage)
    ensures sender in r.store ==> Follows(SessionOf(store, sender), r.store[sender])
    // A session is only ever deleted from the confirmation stage.
    ensures sender !in r.store ==> SessionOf(store, sender).stage == Confirming
    // A refused sender gets the fixed reply, and a session that does not move.
    ensures r.message == Unauthorized <==> !Authorized(allowed, sender)
    ensures !Authorized(allowed, sender) ==>
              r.message == Unauthorized && sender in r.store && r.store[sender] == SessionOf(store, sender)
  {
    var (store', s) := GetUserSession(store, sender);
    if !Authorized(allowed, sender) then
      Reply(store', Unauthorized)
    else
      match Dispatch(s, body, media, d)
      case Keep(s', reply) => Reply(store'[sender := s'], reply)
      case Drop(reply) => Reply(store' - {sender}, reply)
  }

  /** For an admitted sender the step is the dispatch on the sender's
      session: its reply is sent, and the store either holds the new session
      or has lost the sender's entry. */
  lemma AuthorizedStep(store: Store, allowed: seq<string>, sender: string, body: string,
                       media: seq<string>, d: Automation.Driver)
    requires sender in store ==> WellFormed(store[sender])
    requires Authorized(allowed, sender)
    ensures var r := HandleIncomingMessage(store, allowed, sender, body, media, d);
            var t := Dispatch(SessionOf(store, sender), body, media, d);
            && r.message == t.reply
            && (t.Keep? ==> r.store == store[sender := t.session])
            && (t.Drop? ==> r.store == store - {sender})
  {
    var store' := GetUserSession(store, sender).0;
    var t := Dispatch(SessionOf(store, sender), body, media, d);
    if t.Keep? {
      assert store'[sender := t.session] == store[sender := t.session];
    } else {
      assert store' - {sender} == store - {sender};
    }
  }
}

=== FILE: replies.dfy ===
/**
 * The replies of `WhatsAppBot` (`src/bot/whatsapp_bot.py`). The dialogue
 * returns a `Message`; `Render` produces the exact text the Python handler
 * returns for it. Texts that the lemmas below reason about character by
 * character are written as concatenations of short pieces.
 */
module Replies {
  import opened Optional
  import opened Text

  const Star: char := '\U{2B50}'

  /** Python's `'⭐' * n`: `n` star glyphs, and none when `n <= 0`. */
  function Stars(n: int): (r: string)
    ensures |r| == Count(r, Star) == if n <= 0 then 0 else n
  {
    CountRepeat(Star, n);
    Repeat(Star, n)
  }

  /** Python's `f"{x}"` of a value that may be `None`. */
  function Show(x: Option<string>): string {
    if x.Some? then x.value else "None"
  }

  /** Every reply the dialogue can return. */
  datatype Message =
    | Unauthorized
    | Welcome
    | AskRating(name: string)
    | RatingError
    | AskText(rating: int)
    | AskPhotos
    | PhotosError
    | Summary(place: Option<string>, rating: int, text: Option<string>, photos: nat)
    | Cancelled
    | ConfirmError
    | Submitted(place: Option<string>)
    | SubmitFailed(reason: string)
    | InternalError

  const RatingMenu :=
    "Ahora califica el lugar del 1 al 5 estrellas:\n"
    + "\U{2B50} = 1 estrella\n"
    + "\U{2B50}\U{2B50} = 2 estrellas\n"
    + "\U{2B50}\U{2B50}\U{2B50} = 3 estrellas\n"
    + "\U{2B50}\U{2B50}\U{2B50}\U{2B50} = 4 estrellas\n"
    + "\U{2B50}\U{2B50}\U{2B50}\U{2B50}\U{2B50} = 5 estrellas\n\n"
    + "Escribe solo el número (1, 2, 3, 4 o 5):"

  const AskTextHead := "¡Excelente! Calificación: "
  const AskTextTail :=
    "\n\nAhora escribe tu reseña. " + "Cuéntanos tu experiencia:\n"
    + "- ¿Qué te gustó?\n"
    + "- ¿Qué mejorarías?\n"
    + "- ¿Recomendarías el lugar?\n\n"
    + "Escribe tu comentario:"

  const SummaryHead := "\U{1F4CB} *Resumen de tu reseña:*\n\n" + "\U{1F4CD} *Lugar:* "
  const SummaryRating := "\n" + [Star] + " *Calificación:* "
  const SummaryComment := "\n\U{1F4DD} *Comentario:* "
  const SummaryPhotos := "\n\U{1F4F8} *Fotos:* "
  const PhotoUnit := " imagen(es)"
  const SummaryTail :=
    "\n\n¿Estás seguro de que quieres " + "enviar esta reseña a " + "Google Maps?\n"
    + "Escribe 'sí' para confirmar " + "o 'no' para cancelar."

  const UnauthorizedText := "Lo siento, no tienes autorización para usar este bot."

  const WelcomeText :=
    "¡Hola! Soy tu bot de feedback para Google Maps. \U{1F5FA}\U{FE0F}\n\n"
    + "Para empezar, envíame el nombre del lugar donde quieres dejar tu reseña.\n"
    + "Puedes escribir el nombre del local, restaurante, o cualquier lugar."

  function AskRatingText(place: string): string {
    "Perfecto! Buscaré: " + ("*" + place + "*") + ("\n\n" + RatingMenu)
  }

  const RatingErrorText := "Por favor, escribe solo un número del 1 al 5."

  function AskTextText(rating: int): string {
    AskTextHead + Stars(rating) + AskTextTail
  }

  const AskPhotosText :=
    "¡Perfecto! Tu reseña está lista.\n\n"
    + "¿Quieres agregar fotos? Envía las imágenes que quieras incluir en tu reseña.\n"
    + "Si no quieres agregar fotos, escribe 'sin fotos' o 'no'."

  const PhotosErrorText :=
    "Por favor, envía las fotos o escribe 'sin fotos' si no quieres agregar imágenes."

  function SummaryReply(place: Option<string>, rating: int, text: Option<string>, photos: nat): string {
    SummaryHead + Show(place) + SummaryRating + Stars(rating) + SummaryComment + Show(text)
    + SummaryPhotos + NatToString(photos) + PhotoUnit + SummaryTail
  }

  const CancelledText := "Reseña cancelada. Puedes empezar de nuevo enviando cualquier mensaje."

  const ConfirmErrorText := "Por favor, escribe 'sí' para confirmar o 'no' para cancelar."

  const SubmittedHead := "\U{2705} *¡Reseña enviada exitosamente!*\n\n" + "Tu reseña para "
  const SubmittedTail := " ya está publicada en Google Maps.\n" + "¡Gracias por compartir tu experiencia!"

  function SubmittedText(place: Option<string>): string {
    SubmittedHead + ("*" + Show(place) + "*") + SubmittedTail
  }

  function SubmitFailedText(reason: string): string {
    "\U{274C} *Error al enviar la reseña*\n\n"
    + ("Error: " + reason + "\n")
    + "Por favor, intenta de nuevo más tarde."
  }

  const InternalErrorText := "\U{274C} Error interno del bot. Por favor, intenta de nuevo."

  /** The text the Python handler returns for a message. What each reply
      promises the user is stated here: the place name between asterisks,
      one star glyph per rating point, the summary's contents and the
      pipeline's failure message. */
  function Render(m: Message): (r: string)
    ensures m.AskRating? ==> Infix("*" + m.name + "*", r)
    ensures m.AskText? ==> Count(r, Star) == if m.rating <= 0 then 0 else m.rating
    ensures m.Summary? ==> Infix(Show(m.place), r) && Infix(Show(m.text), r)
                           && Infix(NatToString(m.photos) + PhotoUnit, r)
    ensures m.Summary? ==> Count(r, Star) == 1 + (if m.rating <= 0 then 0 else m.rating)
                                             + Count(Show(m.place), Star) + Count(Show(m.text), Star)
    ensures m.Submitted? ==> Infix("*" + Show(m.place) + "*", r)
    ensures m.SubmitFailed? ==> Infix("Error: " + m.reason + "\n", r)
  {
    if m.AskRating? then AskRatingEchoesPlace(m.name); AskRatingText(m.name)
    else if m.AskText? then AskTextStars(m.rating); AskTextText(m.rating)
    else if m.Summary? then
      SummaryEchoesPlace(m.place, m.rating, m.text, m.photos);
      SummaryEchoesText(m.place, m.rating, m.text, m.photos);
      SummaryEchoesPhotos(m.place, m.rating, m.text, m.photos);
      SummaryStars(m.place, m.rating, m.text, m.photos);
      SummaryReply(m.place, m.rating, m.text, m.photos)
    else if m.Submitted? then SubmittedEchoesPlace(m.place); SubmittedText(m.place)
    else if m.SubmitFailed? then SubmitFailedEmbedsReason(m.reason); SubmitFailedText(m.reason)
    else FixedText(m)
  }

  /** The replies that do not depend on the session. */
  function FixedText(m: Message): string
    requires !(m.AskRating? || m.AskText? || m.Summary? || m.Submitted? || m.SubmitFailed?)
  {
    match m
    case Unauthorized => UnauthorizedText
    case Welcome => WelcomeText
    case RatingError => RatingErrorText
    case AskPhotos => AskPhotosText
    case PhotosError => PhotosErrorText
    case Cancelled => CancelledText
    case ConfirmError => ConfirmErrorText
    case InternalError => InternalErrorText
  }

  /** The reply to a place name echoes it between asterisks. */
  lemma AskRatingEchoesPlace(place: string)
    ensures Infix("*" + place + "*", AskRatingText(place))
  {
    InfixOfConcat("Perfecto! Buscaré: ", "*" + place + "*", "\n\n" + RatingMenu);
  }

  lemma AskTextFramesStarFree()
    ensures Star !in AskTextHead && Star !in AskTextTail
  {
    assert Star !in "\n\nAhora escribe tu reseña. " && Star !in "Cuéntanos tu experiencia:\n";
    assert Star !in "- ¿Qué te gustó?\n" && Star !in "- ¿Qué mejorarías?\n";
    assert Star !in "- ¿Recomendarías el lugar?\n\n" && Star !in "Escribe tu comentario:";
  }

  /** The reply to an accepted rating holds exactly that many star glyphs. */
  lemma AskTextStars(rating: int)
    ensures Count(AskTextText(rating), Star) == if rating <= 0 then 0 else rating
  {
    AskTextFramesStarFree();
    CountRepeat(Star, rating);
    CountAbsent(AskTextHead, Star);
    CountAbsent(AskTextTail, Star);
    CountConcat(AskTextHead, Stars(rating), Star);
    CountConcat(AskTextHead + Stars(rating), AskTextTail, Star);
  }

  lemma SummaryFramesStarFree()
    ensures Star !in SummaryHead && Star !in SummaryComment && Star !in SummaryPhotos
  {
    assert Star !in "\U{1F4CB} *Resumen de tu reseña:*\n\n" && Star !in "\U{1F4CD} *Lugar:* ";
  }

  lemma SummaryTailStarFree()
    ensures Star !in PhotoUnit && Star !in SummaryTail
  {
    assert Star !in PhotoUnit && Star !in "\n\n¿Estás seguro de que quieres ";
    assert Star !in "enviar esta reseña a " && Star !in "Google Maps?\n";
    assert Star !in "Escribe 'sí' para confirmar " && Star !in "o 'no' para cancelar.";
  }

  /** The summary's rating line starts with exactly one star glyph of its own. */
  lemma SummaryRatingOneStar()
    ensures Count(SummaryRating, Star) == 1
  {
    var rest := " *Calificación:* ";
    assert Star !in rest;
    CountAbsent(rest, Star);
    CountAbsent("\n", Star);
    CountConcat("\n", [Star], Star);
    CountConcat("\n" + [Star], rest, Star);
  }

  /** The confirmation summary echoes the place, ... */
  lemma SummaryEchoesPlace(place: Option<string>, rating: int, text: Option<string>, photos: nat)
    ensures Infix(Show(place), SummaryReply(place, rating, text, photos))
  {
    var p, t, n := Show(place), Show(text), NatToString(photos);
    var s1 := SummaryHead + p;
    InfixSelf(p);
    InfixExtendLeft(p, SummaryHead, p);
    var s2 := s1 + SummaryRating;
    InfixExtendRight(p, s1, SummaryRating);
    var s3 := s2 + Stars(rating);
    InfixExtendRight(p, s2, Stars(rating));
    var s4 := s3 + SummaryComment;
    InfixExtendRight(p, s3, SummaryComment);
    var s5 := s4 + t;
    InfixExtendRight(p, s4, t);
    var s6 := s5 + SummaryPhotos;
    InfixExtendRight(p, s5, SummaryPhotos);
    var s7 := s6 + n;
    InfixExtendRight(p, s6, n);
    var s8 := s7 + PhotoUnit;
    InfixExtendRight(p, s7, PhotoUnit);
    InfixExtendRight(p, s8, SummaryTail);
  }

  /** ... the review text, ... */
  lemma SummaryEchoesText(place: Option<string>, rating: int, text: Option<string>, photos: nat)
    ensures Infix(Show(text), SummaryReply(place, rating, text, photos))
  {
    var p, t, n := Show(place), Show(text), NatToString(photos);
    var s4 := SummaryHead + p + SummaryRating + Stars(rating) + SummaryComment;
    InfixSelf(t);
    InfixExtendLeft(t, s4, t);
    var s5 := s4 + t;
    var s6 := s5 + SummaryPhotos;
    InfixExtendRight(t, s5, SummaryPhotos);
    var s7 := s6 + n;
    InfixExtendRight(t, s6, n);
    var s8 := s7 + PhotoUnit;
    InfixExtendRight(t, s7, PhotoUnit);
    InfixExtendRight(t, s8, SummaryTail);
  }

  /** ... and the number of photos. */
  lemma SummaryEchoesPhotos(place: Option<string>, rating: int, text: Option<string>, photos: nat)
    ensures Infix(NatToString(photos) + PhotoUnit, SummaryReply(place, rating, text, photos))
  {
    var p, t, n := Show(place), Show(text), NatToString(photos);
    var s6 := SummaryHead + p + SummaryRating + Stars(rating) + SummaryComment + t + SummaryPhotos;
    InfixOfAdjacent(s6, n, PhotoUnit, SummaryTail);
  }

  /** The summary's star glyphs are the rating line's own one, one per point
      of rating, and any inside the place or the review text. */
  lemma SummaryStars(place: Option<string>, rating: int, text: Option<string>, photos: nat)
    ensures Count(SummaryReply(place, rating, text, photos), Star)
            == 1 + (if rating <= 0 then 0 else rating) + Count(Show(place), Star) + Count(Show(text), Star)
  {
    var p, t, n := Show(place), Show(text), NatToString(photos);
    var stars := Stars(rating);
    SummaryFramesStarFree();
    SummaryTailStarFree();
    SummaryRatingOneStar();
    CountRepeat(Star, rating);
    assert Star !in n;
    CountAbsent(SummaryHead, Star);
    CountAbsent(SummaryComment, Star);
    CountAbsent(SummaryPhotos, Star);
    CountAbsent(PhotoUnit, Star);
    CountAbsent(SummaryTail, Star);
    CountAbsent(n, Star);
    var s1 := SummaryHead + p;
    CountConcat(SummaryHead, p, Star);
    var s2 := s1 + SummaryRating;
    CountConcat(s1, SummaryRating, Star);
    var s3 := s2 + stars;
    CountConcat(s2, stars, Star);
    var s4 := s3 + SummaryComment;
    CountConcat(s3, SummaryComment, Star);
    var s5 := s4 + t;
    CountConcat(s4, t, Star);
    var s6 := s5 + SummaryPhotos;
    CountConcat(s5, SummaryPhotos, Star);
    var s7 := s6 + n;
    CountConcat(s6, n, Star);
    var s8 := s7 + PhotoUnit;
    CountConcat(s7, PhotoUnit, Star);
    CountConcat(s8, SummaryTail, Star);
  }

  /** A failed submission reports the pipeline's message verbatim. */
  lemma SubmitFailedEmbedsReason(reason: string)
    ensures Infix("Error: " + reason + "\n", SubmitFailedText(reason))
  {
    InfixOfConcat("\U{274C} *Error al enviar la reseña*\n\n", "Error: " + reason + "\n",
                  "Por favor, intenta de nuevo más tarde.");
  }

  /** A successful submission names the place between asterisks. */
  lemma SubmittedEchoesPlace(place: Option<string>)
    ensures Infix("*" + Show(place) + "*", SubmittedText(place))
  {
    InfixOfConcat(SubmittedHead, "*" + Show(place) + "*", SubmittedTail);
  }
}

=== FILE: scenarios.dfy ===
/**
 * Whole conversations: runs of `HandleIncomingMessage` over a sequence of
 * inbound messages, the effect of the allow-list as configured, and the
 * dialogue walked through one message at a time.
 */
module Scenarios {
  import opened Optional
  import opened Text
  import opened Replies
  import opened Bot
  import Settings
  import Automation

  /** One inbound WhatsApp message, with how the browser would behave if this
      message triggered a submission. */
  datatype Inbound = Inbound(sender: string, body: string, media: seq<string>, driver: Automation.Driver)

  /** The store after handling `msgs` in order, and the reply to each. */
  function RunAll(store: Store, allowed: seq<string>, msgs: seq<Inbound>): (r: (Store, seq<Message>))
    requires StoreWellFormed(store)
    ensures StoreWellFormed(r.0)
    ensures |r.1| == |msgs|
    decreases |msgs|
  {
    if |msgs| == 0 then
      (store, [])
    else
      var m := msgs[0];
      var step := HandleIncomingMessage(store, allowed, m.sender, m.body, m.media, m.driver);
      StepPreservesWellFormed(store, allowed, m);
      var rest := RunAll(step.store, allowed, msgs[1..]);
      (rest.0, [step.message] + rest.1)
  }

  /** One step keeps every session of the store well formed. */
  lemma StepPreservesWellFormed(store: Store, allowed: seq<string>, m: Inbound)
    requires StoreWellFormed(store)
    ensures StoreWellFormed(HandleIncomingMessage(store, allowed, m.sender, m.body, m.media, m.driver).store)
  {
    var r := HandleIncomingMessage(store, allowed, m.sender, m.body, m.media, m.driver);
    forall k | k in r.store ensures WellFormed(r.store[k]) {
      if k != m.sender {
        assert k in store;
      }
    }
  }

  /** A sender the allow-list refuses never moves: whatever anyone sends, that
      sender's session stays what it was (or the fresh one), and every reply to
      that sender is the refusal. */
  lemma {:induction false} RefusedSenderNeverProgresses(store: Store, allowed: seq<string>, msgs: seq<Inbound>, x: string)
    requires StoreWellFormed(store)
    requires !Authorized(allowed, x)
    ensures SessionOf(RunAll(store, allowed, msgs).0, x) == SessionOf(store, x)
    ensures forall i :: 0 <= i < |msgs| && msgs[i].sender == x ==> RunAll(store, allowed, msgs).1[i] == Unauthorized
    decreases |msgs|
  {
    if |msgs| > 0 {
      var m := msgs[0];
      var step := HandleIncomingMessage(store, allowed, m.sender, m.body, m.media, m.driver);
      StepPreservesWellFormed(store, allowed, m);
      RefusedStep(store, allowed, m, x);
      RefusedSenderNeverProgresses(step.store, allowed, msgs[1..], x);
      var r := RunAll(store, allowed, msgs);
      var rest := RunAll(step.store, allowed, msgs[1..]);
      assert r.1 == [step.message] + rest.1;
      forall i | 0 <= i < |msgs| && msgs[i].sender == x ensures r.1[i] == Unauthorized {
        if i > 0 {
          assert msgs[1..][i - 1] == msgs[i];
          assert r.1[i] == rest.1[i - 1];
        }
      }
    }
  }

  /** One message leaves a refused sender's session as it was, and answers
      that sender with the refusal. */
  lemma RefusedStep(store: Store, allowed: seq<string>, m: Inbound, x: string)
    requires StoreWellFormed(store)
    requires !Authorized(allowed, x)
    ensures SessionOf(HandleIncomingMessage(store, allowed, m.sender, m.body, m.media, m.driver).store, x)
            == SessionOf(store, x)
    ensures m.sender == x ==>
              HandleIncomingMessage(store, allowed, m.sender, m.body, m.media, m.driver).message == Unauthorized
  {
    var step := HandleIncomingMessage(store, allowed, m.sender, m.body, m.media, m.driver);
    if m.sender != x {
      assert x in step.store <==> x in store;
    }
  }

  /** Sessions of other senders are untouched by a run in which they send
      nothing. */
  lemma {:induction false} SilentSenderUntouched(store: Store, allowed: seq<string>, msgs: seq<Inbound>, x: string)
    requires StoreWellFormed(store)
    requires forall i :: 0 <= i < |msgs| ==> msgs[i].sender != x
    ensures x in RunAll(store, allowed, msgs).0 <==> x in store
    ensures x in store ==> RunAll(store, allowed, msgs).0[x] == store[x]
    decreases |msgs|
  {
    if |msgs| > 0 {
      var m := msgs[0];
      var step := HandleIncomingMessage(store, allowed, m.sender, m.body, m.media, m.driver);
      StepPreservesWellFormed(store, allowed, m);
      assert forall i :: 0 <= i < |msgs[1..]| ==> msgs[1..][i].sender == msgs[i + 1].sender;
      SilentSenderUntouched(step.store, allowed, msgs[1..], x);
    }
  }

  // ---------------------------------------------------------------------------
  // The allow-list as configured
  // ---------------------------------------------------------------------------

  /** With `ALLOWED_NUMBERS` unset, the list is `['']`, which is not empty, so
      every sender with a real number is refused and stays where it was. */
  lemma UnsetAllowListRefusesEveryone(store: Store, sender: string, body: string, media: seq<string>,
                                      d: Automation.Driver)
    requires sender in store ==> WellFormed(store[sender])
    requires sender != ""
    ensures var r := HandleIncomingMessage(store, Settings.AllowedNumbers(None), sender, body, media, d);
            r.message == Unauthorized && sender in r.store && r.store[sender] == SessionOf(store, sender)
  {
    assert Settings.AllowedNumbers(None) == [""];
  }

  /** With empty entries dropped, an unset variable restricts nobody. */
  lemma UnsetIntendedAllowListAdmitsEveryone(store: Store, sender: string, body: string, media: seq<string>,
                                             d: Automation.Driver)
    requires sender in store ==> WellFormed(store[sender])
    ensures HandleIncomingMessage(store, Settings.AllowedNumbersIntended(None), sender, body, media, d).message
            != Unauthorized
  {
    Settings.UnsetIntendedIsEmpty();
  }

  /** Dropping empty entries changes the verdict only for an empty-string
      sender or when the list had nothing but empty entries. */
  lemma IntendedAllowListAgrees(env: Option<string>, sender: string)
    requires sender != ""
    requires |Settings.AllowedNumbersIntended(env)| > 0
    ensures Authorized(Settings.AllowedNumbersIntended(env), sender) <==> Authorized(Settings.AllowedNumbers(env), sender)
  {
    assert Settings.AllowedNumbersIntended(env)[0] in Settings.AllowedNumbersIntended(env);
  }

  // ---------------------------------------------------------------------------
  // The dialogue, one message at a time
  // ---------------------------------------------------------------------------

  // Each scenario holds for every allow-list that admits the sender: the
  // list as configured when it names the sender, or the corrected one.

  /** A first message from an unknown sender gets the welcome and moves the
      new session to waiting for the place name. */
  lemma FirstMessageWelcomes(store: Store, allowed: seq<string>,
                               sender: string, body: string, media: seq<string>, d: Automation.Driver)
    requires Authorized(allowed, sender)
    requires sender !in store
    ensures var r := HandleIncomingMessage(store, allowed, sender, body, media, d);
            && r.message == Welcome
            && r.store[sender] == NewSession.(stage := WaitingForPlace)
  {
  }

  /** A place name moves the session on and is echoed in the reply. */
  lemma PlaceNameEchoed(store: Store, allowed: seq<string>,
                          sender: string, media: seq<string>, d: Automation.Driver)
    requires Authorized(allowed, sender)
    requires sender in store && WellFormed(store[sender]) && store[sender].stage == WaitingForPlace
    ensures var r := HandleIncomingMessage(store, allowed, sender, "Café Luna", media, d);
            && r.store[sender].stage == WaitingForRating
            && r.store[sender].place == Some("Café Luna")
            && Infix("Café Luna", Render(r.message))
  {
    var r := HandleIncomingMessage(store, allowed, sender, "Café Luna", media, d);
    AskRatingEchoesPlace("Café Luna");
    assert Infix("Café Luna", "*" + "Café Luna" + "*") by {
      InfixOfConcat("*", "Café Luna", "*");
    }
    InfixWithin("Café Luna", "*" + "Café Luna" + "*", Render(r.message));
  }

  /** A rating outside 1..5 is refused and nothing changes. */
  lemma RatingOutOfRangeRefused(store: Store, allowed: seq<string>,
                                  sender: string, media: seq<string>, d: Automation.Driver)
    requires Authorized(allowed, sender)
    requires sender in store && WellFormed(store[sender]) && store[sender].stage == WaitingForRating
    ensures var r := HandleIncomingMessage(store, allowed, sender, "7", media, d);
            && r.message == RatingError
            && r.store == store
  {
    assert ParseInt("7") == Some(7) by {
      ParseIntOfIntToString(7);
    }
  }

  /** A rating of 4 is stored, and the reply shows four stars. */
  lemma RatingFourAccepted(store: Store, allowed: seq<string>,
                             sender: string, media: seq<string>, d: Automation.Driver)
    requires Authorized(allowed, sender)
    requires sender in store && WellFormed(store[sender]) && store[sender].stage == WaitingForRating
    ensures var r := HandleIncomingMessage(store, allowed, sender, "4", media, d);
            && r.store[sender].stage == WaitingForText
            && r.store[sender].rating == Some(4)
            && Count(Render(r.message), Star) == 4
  {
    assert ParseInt("4") == Some(4) by {
      ParseIntOfIntToString(4);
    }
    AskTextStars(4);
  }

  /** A rating padded with an information separator is refused: `int()`
      does not skip U+001C, so nothing changes. */
  lemma SeparatorRatingRefused(store: Store, allowed: seq<string>, sender: string, media: seq<string>,
                               d: Automation.Driver)
    requires Authorized(allowed, sender)
    requires sender in store && WellFormed(store[sender]) && store[sender].stage == WaitingForRating
    ensures var r := HandleIncomingMessage(store, allowed, sender, "\U{1C}4", media, d);
            && r.message == RatingError
            && r.store == store
  {
    assert ParseInt("\U{1C}4") == None by {
      assert "\U{1C}4"[0] in InfoSeparators;
    }
  }

  /** Commands are matched on the lower-cased body, so capitals do not
      matter. */
  lemma CapitalisedCommands()
    ensures Lower("SÍ") in YesWords
    ensures Lower("NO") in NoWords
    ensures Lower("Sin Fotos") in NoPhotoWords
  {
    assert Lower("SÍ") == "sí";
    assert Lower("NO") == "no";
    assert Lower("Sin Fotos") == "sin fotos";
  }

  /** "no" is one of the words that decline photos. */
  lemma NoDeclinesPhotos()
    ensures Lower("no") in NoPhotoWords
  {
    assert Lower("no") == "no";
  }

  /** Declining photos moves to the confirmation with a summary of no photos. */
  lemma NoPhotosStep(store: Store, allowed: seq<string>,
                       sender: string, media: seq<string>, d: Automation.Driver)
    requires Authorized(allowed, sender)
    requires sender in store && WellFormed(store[sender]) && store[sender].stage == WaitingForPhotos
    ensures var r := HandleIncomingMessage(store, allowed, sender, "no", media, d);
            var s := store[sender];
            && r.store[sender] == s.(stage := Confirming)
            && r.message == Summary(s.place, s.rating.value, s.text, 0)
  {
    NoDeclinesPhotos();
  }

  /** Declining photos shows the summary with the place, the text and no
      photos. */
  lemma NoPhotosShowsSummary(store: Store, allowed: seq<string>,
                               sender: string, media: seq<string>, d: Automation.Driver)
    requires Authorized(allowed, sender)
    requires sender in store && WellFormed(store[sender]) && store[sender].stage == WaitingForPhotos
    ensures var r := HandleIncomingMessage(store, allowed, sender, "no", media, d);
            var s := store[sender];
            && Infix(s.place.value, Render(r.message))
            && Infix(s.text.value, Render(r.message))
            && Infix("0 imagen(es)", Render(r.message))
  {
    var s := store[sender];
    NoPhotosStep(store, allowed, sender, media, d);
    ZeroPhotosSummary(s.place.value, s.rating.value, s.text.value);
  }

  /** The summary of a session without photos echoes its place and text and
      says "0 imagen(es)"; its stars are counted by `SummaryStars`. */
  lemma ZeroPhotosSummary(place: string, rating: int, text: string)
    ensures var reply := Render(Summary(Some(place), rating, Some(text), 0));
            && Infix(place, reply) && Infix(text, reply) && Infix("0 imagen(es)", reply)
  {
    SummaryEchoesPlace(Some(place), rating, Some(text), 0);
    SummaryEchoesText(Some(place), rating, Some(text), 0);
    SummaryEchoesPhotos(Some(place), rating, Some(text), 0);
    assert NatToString(0) + PhotoUnit == "0 imagen(es)";
  }

  /** "cancelar" is a negative command and not an affirmative one. */
  lemma CancelarIsNegative()
    ensures Lower("cancelar") !in YesWords && Lower("cancelar") in NoWords
  {
    assert Lower("cancelar") == "cancelar";
  }

  /** Cancelling deletes the session, and the next message starts over with
      the welcome. */
  lemma CancelThenStartOver(store: Store, allowed: seq<string>,
                              sender: string, body: string, media: seq<string>,
                            d: Automation.Driver, d': Automation.Driver)
    requires Authorized(allowed, sender)
    requires sender in store && WellFormed(store[sender]) && store[sender].stage == Confirming
    ensures var r := HandleIncomingMessage(store, allowed, sender, "cancelar", media, d);
            && r.message == Cancelled
            && sender !in r.store
            && var r' := HandleIncomingMessage(r.store, allowed, sender, body, media, d');
               r'.message == Welcome && r'.store[sender] == NewSession.(stage := WaitingForPlace)
  {
    CancelarIsNegative();
    var r := HandleIncomingMessage(store, allowed, sender, "cancelar", media, d);
    assert HandleConfirmation(store[sender], "cancelar", d) == Drop(Cancelled);
    FirstMessageWelcomes(r.store, allowed, sender, body, media, d');
  }
  /** Whatever the body, the text stage stores it verbatim as the review and
      asks for photos. */
  lemma TextStored(store: Store, allowed: seq<string>,
                   sender: string, body: string, media: seq<string>, d: Automation.Driver)
    requires Authorized(allowed, sender)
    requires sender in store && WellFormed(store[sender]) && store[sender].stage == WaitingForText
    ensures var r := HandleIncomingMessage(store, allowed, sender, body, media, d);
            && r.message == AskPhotos
            && r.store == store[sender := store[sender].(text := Some(body), stage := WaitingForPhotos)]
  {
    DispatchRecordsInput(store[sender], body, media, d);
    AuthorizedStep(store, allowed, sender, body, media, d);
  }

  /** A yes word at the confirmation submits the review. When
      `process_feedback` returns, the session is deleted and the reply reports
      success or the pipeline's failure; when `driver.quit()` raises out of
      it, the store is unchanged and the internal error is sent. */
  lemma YesSubmits(store: Store, allowed: seq<string>,
                   sender: string, body: string, media: seq<string>, d: Automation.Driver)
    requires Authorized(allowed, sender)
    requires sender in store && WellFormed(store[sender]) && store[sender].stage == Confirming
    requires Lower(body) in YesWords
    ensures var r := HandleIncomingMessage(store, allowed, sender, body, media, d);
            && (sender in r.store <==> Automation.DriverCreated(d) && d.quit.QuitRaises?)
            && (sender in r.store ==> r.store == store && r.message == InternalError)
            && (sender !in r.store ==> r.store == store - {sender})
            && (sender !in r.store && Automation.AllPass(d) ==> r.message == Submitted(store[sender].place))
            && (sender !in r.store && !Automation.AllPass(d) ==>
                  r.message == SubmitFailed(Automation.Expected(d).message))
  {
    var s := store[sender];
    var t := Dispatch(s, body, media, d);
    var r := HandleIncomingMessage(store, allowed, sender, body, media, d);
    assert t == SubmitToGoogleMaps(s, d);
    AuthorizedStep(store, allowed, sender, body, media, d);
    if t.Keep? {
      assert t == Keep(s, InternalError);
      assert r.store == store[sender := s] == store;
    } else {
      assert r.store == store - {sender};
    }
  }
}

=== FILE: settings.dfy ===
/**
 * The allow-list of `Config` (`src/config/settings.py`): the environment
 * variable `ALLOWED_NUMBERS`, defaulting to the empty string, split on commas.
 * Reading the environment is not modelled; its value is a parameter.
 */
module Settings {
  import opened Optional
  import opened Text

  /** Python's `s.split(sep)` with an explicit one-character separator: the
      pieces between separators, in order, empty pieces included; the empty
      string gives one empty piece. */
  function Split(s: string, sep: char): (r: seq<string>)
    ensures |r| == Count(s, sep) + 1
    ensures forall i :: 0 <= i < |r| ==> sep !in r[i]
  {
    if |s| == 0 then
      [[]]
    else
      var rest := Split(s[1..], sep);
      if s[0] == sep then [[]] + rest
      else [[s[0]] + rest[0]] + rest[1..]
  }

  /** Python's `sep.join(parts)`. */
  function Join(parts: seq<string>, sep: char): string
    requires |parts| > 0
  {
    if |parts| == 1 then parts[0] else parts[0] + [sep] + Join(parts[1..], sep)
  }

  /** Splitting and joining again gives back the original text. */
  lemma {:induction false} JoinSplit(s: string, sep: char)
    ensures Join(Split(s, sep), sep) == s
  {
    if |s| > 0 {
      var rest := Split(s[1..], sep);
      JoinSplit(s[1..], sep);
      if s[0] == sep {
        assert Split(s, sep)[1..] == rest;
        assert s == [] + [sep] + s[1..];
      } else {
        var r := Split(s, sep);
        if |rest| == 1 {
          assert r == [[s[0]] + rest[0]];
        } else {
          assert r[1..] == rest[1..];
          assert Join(r, sep) == [s[0]] + rest[0] + [sep] + Join(rest[1..], sep);
          assert Join(rest, sep) == rest[0] + [sep] + Join(rest[1..], sep);
        }
      }
    }
  }

  /** Joining pieces that hold no separator and splitting again gives back
      the pieces. */
  lemma {:induction false} SplitJoin(parts: seq<string>, sep: char)
    requires |parts| > 0
    requires forall i :: 0 <= i < |parts| ==> sep !in parts[i]
    ensures Split(Join(parts, sep), sep) == parts
  {
    if |parts| == 1 {
      SplitPiece(parts[0], [], sep);
    } else {
      SplitJoin(parts[1..], sep);
      SplitPiece(parts[0], Join(parts[1..], sep), sep);
    }
  }

  /** Splitting a separator-free piece, then a separator and `tail`, or the
      piece alone when `tail` is empty and no separator follows. */
  lemma {:induction false} SplitPiece(piece: string, tail: string, sep: char)
    requires sep !in piece
    ensures |tail| == 0 ==> Split(piece, sep) == [piece]
    ensures Split(piece + [sep] + tail, sep) == [piece] + Split(tail, sep)
  {
    if |piece| == 0 {
      assert piece + [sep] + tail == [sep] + tail;
      assert ([sep] + tail)[1..] == tail;
    } else {
      SplitPiece(piece[1..], tail, sep);
      assert (piece + [sep] + tail)[1..] == piece[1..] + [sep] + tail;
      assert [piece[0]] + piece[1..] == piece;
    }
  }

  /** `ALLOWED_NUMBERS`, as the module computes it: the variable's value (the
      empty string when it is unset) split on commas. */
  function AllowedNumbers(env: Option<string>): (r: seq<string>)
    ensures |r| > 0
    ensures env.None? ==> r == [""]
    ensures env.Some? ==> Join(r, ',') == env.value
  {
    JoinSplit(env.GetOr(""), ',');
    Split(env.GetOr(""), ',')
  }

  /** The non-empty entries of `parts`, in order. */
  function NonEmpty(parts: seq<string>): (r: seq<string>)
    ensures |r| <= |parts|
    ensures forall x :: x in r <==> x in parts && x != []
  {
    if |parts| == 0 then []
    else (if parts[0] == [] then [] else [parts[0]]) + NonEmpty(parts[1..])
  }

  /** The allow-list with empty entries dropped, so that an unset or empty
      variable gives an empty list. */
  function AllowedNumbersIntended(env: Option<string>): (r: seq<string>)
    ensures forall x :: x in r <==> x in AllowedNumbers(env) && x != []
  {
    NonEmpty(AllowedNumbers(env))
  }

  /** With the variable unset, the corrected list is empty. */
  lemma UnsetIntendedIsEmpty()
    ensures AllowedNumbersIntended(None) == []
  {
    assert AllowedNumbers(None) == [""];
  }
}

=== FILE: text.dfy ===
/**
 * The optional-value wrapper used wherever the Python code stores `None`.
 */
module Optional {

  datatype Option<+T> = None | Some(value: T) {

    /** The wrapped value, or `default` when there is none. */
    function GetOr(default: T): T {
      if Some? then value else default
    }
  }
}

/**
 * The string primitives of the Python runtime that the validators and the
 * bot rely on: whitespace, `str.strip()`, `str.lower()`, `str()` of an
 * integer and `int()` of a string.
 */
module Text {
  import opened Optional

  // ---------------------------------------------------------------------------
  // Whitespace and str.strip()
  // ---------------------------------------------------------------------------

  /** Python's whitespace characters (those for which `str.isspace` holds):
      the set that `str.strip()` and the regular-expression class `\s` use. */
  const Whitespace: set<char> := {
      '\U{9}', '\U{A}', '\U{B}', '\U{C}', '\U{D}', '\U{1C}', '\U{1D}', '\U{1E}',
      '\U{1F}', '\U{20}', '\U{85}', '\U{A0}', '\U{1680}', '\U{2000}', '\U{2001}', '\U{2002}',
      '\U{2003}', '\U{2004}', '\U{2005}', '\U{2006}', '\U{2007}', '\U{2008}', '\U{2009}', '\U{200A}',
      '\U{2028}', '\U{2029}', '\U{202F}', '\U{205F}', '\U{3000}'
    }

  /** Below U+0080 the whitespace characters are the space, the controls
      U+0009..U+000D and the information separators U+001C..U+001F; no
      decimal digit and no sign is whitespace. */
  lemma WhitespaceTable()
    ensures forall c :: c < '\U{80}' ==>
              (c in Whitespace <==> c == ' ' || '\U{9}' <= c <= '\U{D}' || '\U{1C}' <= c <= '\U{1F}')
    ensures forall c :: c in Whitespace ==> !('0' <= c <= '9') && c != '+' && c != '-'
  {
  }

  predicate IsSpace(c: char) {
    c in Whitespace
  }

  predicate AllSpace(s: string) {
    forall i :: 0 <= i < |s| ==> IsSpace(s[i])
  }

  /** `s` has neither leading nor trailing whitespace. */
  predicate Stripped(s: string) {
    |s| == 0 || (!IsSpace(s[0]) && !IsSpace(s[|s| - 1]))
  }

  /** Index of the first character of `s`, at or after `from`, that is not
      whitespace (or `|s|` when there is none). */
  function SkipSpace(s: string, from: nat): (i: nat)
    requires from <= |s|
    ensures from <= i <= |s|
    ensures forall k :: from <= k < i ==> IsSpace(s[k])
    ensures i < |s| ==> !IsSpace(s[i])
    decreases |s| - from
  {
    if from < |s| && IsSpace(s[from]) then SkipSpace(s, from + 1) else from
  }

  /** Index just past the last character of `s[lo..upto]` that is not
      whitespace (or `lo` when there is none). */
  function SkipSpaceBack(s: string, lo: nat, upto: nat): (j: nat)
    requires lo <= upto <= |s|
    ensures lo <= j <= upto
    ensures forall k :: j <= k < upto ==> IsSpace(s[k])
    ensures j > lo ==> !IsSpace(s[j - 1])
    decreases upto - lo
  {
    if upto > lo && IsSpace(s[upto - 1]) then SkipSpaceBack(s, lo, upto - 1) else upto
  }

  /** `str.strip()`: `s` is whitespace, then the result, then whitespace, and
      the result neither starts nor ends with whitespace. */
  function Strip(s: string): (r: string)
    ensures Stripped(r)
    ensures |r| == 0 <==> AllSpace(s)
    ensures exists i :: 0 <= i <= |s| - |r| && r == s[i..i + |r|]
                        && AllSpace(s[..i]) && AllSpace(s[i + |r|..])
  {
    var i := SkipSpace(s, 0);
    var j := SkipSpaceBack(s, i, |s|);
    assert AllSpace(s[..i]) && AllSpace(s[j..]);
    assert |s[i..j]| > 0 ==> s[i..j][0] == s[i];
    s[i..j]
  }

  lemma {:induction false} SkipSpaceTo(s: string, from: nat, stop: nat)
    requires from <= stop < |s|
    requires forall k :: from <= k < stop ==> IsSpace(s[k])
    requires !IsSpace(s[stop])
    ensures SkipSpace(s, from) == stop
    decreases stop - from
  {
    if from < stop {
      SkipSpaceTo(s, from + 1, stop);
    }
  }

  lemma {:induction false} SkipSpaceBackTo(s: string, lo: nat, upto: nat, stop: nat)
    requires lo < stop <= upto <= |s|
    requires forall k :: stop <= k < upto ==> IsSpace(s[k])
    requires !IsSpace(s[stop - 1])
    ensures SkipSpaceBack(s, lo, upto) == stop
    decreases upto
  {
    if stop < upto {
      SkipSpaceBackTo(s, lo, upto - 1, stop);
    }
  }

  /** Stripping whitespace padding around a non-empty stripped text gives
      that text. */
  lemma StripPadded(a: string, m: string, b: string)
    requires AllSpace(a) && AllSpace(b) && Stripped(m) && |m| > 0
    ensures Strip(a + m + b) == m
  {
    var s := a + m + b;
    assert s[|a|] == m[0] && s[|a| + |m| - 1] == m[|m| - 1];
    SkipSpaceTo(s, 0, |a|);
    SkipSpaceBackTo(s, |a|, |s|, |a| + |m|);
    assert s[|a|..|a| + |m|] == m;
  }

  /** Stripping a string that has no surrounding whitespace leaves it alone. */
  lemma StripStripped(s: string)
    requires Stripped(s)
    ensures Strip(s) == s
  {
    assert SkipSpace(s, 0) == 0;
    assert SkipSpaceBack(s, 0, |s|) == |s|;
  }

  /** `str.strip()` is idempotent. */
  lemma StripIdempotent(s: string)
    ensures Strip(Strip(s)) == Strip(s)
  {
    StripStripped(Strip(s));
  }

  // ---------------------------------------------------------------------------
  // str.lower()
  // ---------------------------------------------------------------------------

  /** Lower-case mapping of one character: ASCII capitals, the Latin-1
      capitals and U+212A KELVIN SIGN (which lower-cases to `k`); every other
      character is kept as it is. */
  function LowerChar(c: char): char {
    if 'A' <= c <= 'Z' || ('\U{C0}' <= c <= '\U{DE}' && c != '\U{D7}') then
      (c as int + 32) as char
    else if c == '\U{212A}' then
      'k'
    else
      c
  }

  /** The characters the modelled `str.lower()` changes. */
  predicate IsCapital(c: char) {
    'A' <= c <= 'Z' || ('\U{C0}' <= c <= '\U{DE}' && c != '\U{D7}') || c == '\U{212A}'
  }

  /** `str.lower()`, character by character: no capital is left, and every
      other character stays where it was. */
  function Lower(s: string): (r: string)
    ensures |r| == |s|
    ensures forall i :: 0 <= i < |s| ==> !IsCapital(r[i])
    ensures forall i :: 0 <= i < |s| && !IsCapital(s[i]) ==> r[i] == s[i]
  {
    seq(|s|, i requires 0 <= i < |s| => LowerChar(s[i]))
  }

  /** The capital forms of a character that is not itself a capital: its
      upper case for the lower-case letters of the table (`k` also has the
      Kelvin sign), and nothing else. */
  predicate CapitalFormOf(c: char, d: char) {
    || (('a' <= d <= 'z' || ('\U{E0}' <= d <= '\U{FE}' && d != '\U{F7}')) && c as int == d as int - 32)
    || (d == 'k' && c == '\U{212A}')
  }

  /** One character lower-cases to a non-capital `d` exactly when it is `d`
      or a capital form of `d`. */
  lemma LowerCharTo(c: char, d: char)
    requires !IsCapital(d)
    ensures LowerChar(c) == d <==> c == d || CapitalFormOf(c, d)
  {
  }

  /** `s` spells `w` when capitals are ignored. */
  predicate SameIgnoringCase(s: string, w: string) {
    |s| == |w| && forall i :: 0 <= i < |s| ==> s[i] == w[i] || CapitalFormOf(s[i], w[i])
  }

  /** A body lower-cases to a capital-free word exactly when it spells that
      word with any mix of capitals. */
  lemma LowerMatches(s: string, w: string)
    requires forall i :: 0 <= i < |w| ==> !IsCapital(w[i])
    ensures Lower(s) == w <==> SameIgnoringCase(s, w)
  {
    if |s| == |w| {
      forall i | 0 <= i < |s| ensures Lower(s)[i] == w[i] <==> s[i] == w[i] || CapitalFormOf(s[i], w[i]) {
        LowerCharTo(s[i], w[i]);
      }
    }
  }

  // ---------------------------------------------------------------------------
  // Counting, repetition and substrings
  // ---------------------------------------------------------------------------

  /** How many times `x` occurs in `s`. */
  function Count<T(==)>(s: seq<T>, x: T): nat {
    if |s| == 0 then 0 else (if s[0] == x then 1 else 0) + Count(s[1..], x)
  }

  lemma {:induction false} CountAbsent<T>(s: seq<T>, x: T)
    requires x !in s
    ensures Count(s, x) == 0
  {
    if |s| > 0 {
      CountAbsent(s[1..], x);
    }
  }

  lemma {:induction false} CountConcat<T>(a: seq<T>, b: seq<T>, x: T)
    ensures Count(a + b, x) == Count(a, x) + Count(b, x)
  {
    if |a| > 0 {
      assert (a + b)[1..] == a[1..] + b;
      CountConcat(a[1..], b, x);
    } else {
      assert a + b == b;
    }
  }

  /** Python's `str * n`: `n` copies of `c`, nothing when `n <= 0`. */
  function Repeat(c: char, n: int): (r: string)
    ensures |r| == if n <= 0 then 0 else n
    ensures forall i :: 0 <= i < |r| ==> r[i] == c
  {
    if n <= 0 then [] else [c] + Repeat(c, n - 1)
  }

  /** A string of repeated `c` holds `c` exactly that many times. */
  lemma {:induction false} CountRepeat(c: char, n: int)
    ensures Count(Repeat(c, n), c) == if n <= 0 then 0 else n
  {
    if n > 0 {
      CountRepeat(c, n - 1);
      assert Repeat(c, n)[1..] == Repeat(c, n - 1);
    }
  }

  /** `x` occurs as a contiguous piece of `s`. */
  predicate Infix(x: string, s: string) {
    exists i :: 0 <= i <= |s| - |x| && OccursAt(x, s, i)
  }

  predicate OccursAt(x: string, s: string, i: int)
    requires 0 <= i <= |s| - |x|
  {
    s[i..i + |x|] == x
  }

  lemma InfixSelf(x: string)
    ensures Infix(x, x)
  {
    assert OccursAt(x, x, 0);
  }

  /** A piece of `a` is a piece of `a + b`. */
  lemma InfixExtendRight(x: string, a: string, b: string)
    requires Infix(x, a)
    ensures Infix(x, a + b)
  {
    var i :| 0 <= i <= |a| - |x| && OccursAt(x, a, i);
    assert (a + b)[i..i + |x|] == a[i..i + |x|];
    assert OccursAt(x, a + b, i);
  }

  /** A piece of `b` is a piece of `a + b`. */
  lemma InfixExtendLeft(x: string, a: string, b: string)
    requires Infix(x, b)
    ensures Infix(x, a + b)
  {
    var i :| 0 <= i <= |b| - |x| && OccursAt(x, b, i);
    assert (a + b)[|a| + i..|a| + i + |x|] == b[i..i + |x|];
    assert OccursAt(x, a + b, |a| + i);
  }

  /** A piece of a piece is a piece. */
  lemma InfixWithin(x: string, y: string, s: string)
    requires Infix(x, y) && Infix(y, s)
    ensures Infix(x, s)
  {
    var i :| 0 <= i <= |y| - |x| && OccursAt(x, y, i);
    var j :| 0 <= j <= |s| - |y| && OccursAt(y, s, j);
    assert s[j..j + |y|] == y && y[i..i + |x|] == x;
    forall k | 0 <= k < |x| ensures s[j + i + k] == x[k] {
      assert x[k] == y[i..i + |x|][k] == y[i + k];
      assert y[i + k] == s[j..j + |y|][i + k];
    }
    assert s[j + i..j + i + |x|] == x;
    assert OccursAt(x, s, j + i);
  }

  /** Two adjacent pieces of a concatenation form one piece. */
  lemma InfixOfAdjacent(a: string, x: string, y: string, b: string)
    ensures Infix(x + y, a + x + y + b)
  {
    assert a + x + y + b == a + (x + y) + b;
    InfixOfConcat(a, x + y, b);
  }

  lemma InfixOfConcat(a: string, x: string, b: string)
    ensures Infix(x, a + x + b)
  {
    var s := a + x + b;
    assert OccursAt(x, s, |a|);
  }

  // ---------------------------------------------------------------------------
  // Decimal numerals: str(int) and int(str)
  // ---------------------------------------------------------------------------

  predicate IsDigit(c: char) {
    '0' <= c <= '9'
  }

  predicate AllDigits(s: string) {
    forall i :: 0 <= i < |s| ==> IsDigit(s[i])
  }

  function DigitValue(c: char): nat
    requires IsDigit(c)
  {
    c as int - '0' as int
  }

  function DigitChar(d: nat): (c: char)
    requires d < 10
    ensures IsDigit(c) && DigitValue(c) == d
  {
    ('0' as int + d) as char
  }

  /** Value of a run of decimal digits, most significant digit first. */
  function DigitsValue(s: string): nat
    requires AllDigits(s)
  {
    if |s| == 0 then 0 else DigitsValue(s[..|s| - 1]) * 10 + DigitValue(s[|s| - 1])
  }

  /** Python's `str(n)` for a non-negative integer: decimal digits with no
      leading zero, except for `0` itself. */
  function NatToString(n: nat): (r: string)
    ensures |r| > 0 && AllDigits(r)
    ensures n == 0 <==> r == "0"
    ensures n > 0 ==> r[0] != '0'
  {
    if n < 10 then [DigitChar(n)] else NatToString(n / 10) + [DigitChar(n % 10)]
  }

  /** Python's `str(n)` for any integer: a minus sign exactly for negative
      numbers, then the digits of the magnitude. */
  function IntToString(n: int): (r: string)
    ensures IntLiteral(r) && r[0] != '+'
    ensures r[0] == '-' <==> n < 0
    ensures DigitsValue(Magnitude(r)) == if n < 0 then -n else n
    ensures |Magnitude(r)| > 1 ==> Magnitude(r)[0] != '0'
  {
    DigitsValueOfNatToString(if n < 0 then -n else n);
    if n < 0 then "-" + NatToString(-n) else NatToString(n)
  }

  /** Reading back a rendered natural number gives the number. */
  lemma {:induction false} DigitsValueOfNatToString(n: nat)
    ensures DigitsValue(NatToString(n)) == n
  {
    if n >= 10 {
      var s := NatToString(n);
      DigitsValueOfNatToString(n / 10);
      assert s[..|s| - 1] == NatToString(n / 10);
    }
  }

  /** `str()` is the only rendering without superfluous zeros: a run of
      digits with no leading zero (or the single digit `0`) is exactly the
      rendering of its value. */
  lemma {:induction false} NatToStringOfDigits(t: string)
    requires |t| > 0 && AllDigits(t) && (|t| > 1 ==> t[0] != '0')
    ensures NatToString(DigitsValue(t)) == t
  {
    if |t| > 1 {
      var u := t[..|t| - 1];
      NatToStringOfDigits(u);
      LeadingDigitPositive(u);
      assert t == u + [t[|t| - 1]];
    }
  }

  /** Digits led by a non-zero digit have a positive value. */
  lemma {:induction false} LeadingDigitPositive(t: string)
    requires |t| > 0 && AllDigits(t) && t[0] != '0'
    ensures DigitsValue(t) > 0
  {
    if |t| > 1 {
      LeadingDigitPositive(t[..|t| - 1]);
    }
  }

  /** The shape `int()` accepts once surrounding whitespace is gone: an
      optional sign followed by at least one decimal digit. */
  predicate IntLiteral(t: string) {
    || (|t| > 0 && AllDigits(t))
    || (|t| > 1 && (t[0] == '+' || t[0] == '-') && AllDigits(t[1..]))
  }

  /** The digits of a literal, without its sign. */
  function Magnitude(t: string): string {
    if |t| > 0 && (t[0] == '+' || t[0] == '-') then t[1..] else t
  }

  /** The four information separators U+001C..U+001F: `str.isspace` holds
      for them, but `int()` does not skip them. */
  const InfoSeparators: set<char> := {'\U{1C}', '\U{1D}', '\U{1E}', '\U{1F}'}

  /** The whitespace `int()` skips around a numeral: ASCII characters count
      only when C's `isspace` holds, every other character when `str.isspace`
      holds. */
  const IntWhitespace: set<char> := Whitespace - InfoSeparators

  predicate AllIntSpace(s: string) {
    forall i :: 0 <= i < |s| ==> s[i] in IntWhitespace
  }

  predicate NoSeparator(s: string) {
    forall k :: 0 <= k < |s| ==> s[k] !in InfoSeparators
  }

  lemma NoSeparatorConcat(a: string, b: string)
    requires NoSeparator(a) && NoSeparator(b)
    ensures NoSeparator(a + b)
  {
    forall k | 0 <= k < |a + b| ensures (a + b)[k] !in InfoSeparators {
      if k >= |a| {
        assert (a + b)[k] == b[k - |a|];
      }
    }
  }

  /** CPython's default `sys.get_int_max_str_digits()`: `int()` of a decimal
      string with more digits raises `ValueError`, and so does `str()` of an
      integer that needs more. */
  const MaxStrDigits := 4300

  /** Python's `int(s)` for a string: `None` where Python raises `ValueError`.
      The text between the whitespace `int()` skips must be a numeral of at
      most `MaxStrDigits` digits. An information separator can only sit in
      the padding `Strip` removes, where `int()` stops at it, so a string
      holding one never parses. */
  function ParseInt(s: string): (r: Option<int>)
    ensures r.Some? <==> && IntLiteral(Strip(s))
                         && |Magnitude(Strip(s))| <= MaxStrDigits
                         && NoSeparator(s)
  {
    if NoSeparator(s) then ParseNumeral(Strip(s)) else None
  }

  /** The value of a numeral with nothing around it: `None` for any other
      text and for one of more than `MaxStrDigits` digits. */
  function ParseNumeral(t: string): (r: Option<int>)
    ensures r.Some? <==> IntLiteral(t) && |Magnitude(t)| <= MaxStrDigits
  {
    if !IntLiteral(t) || |Magnitude(t)| > MaxStrDigits then
      None
    else if t[0] == '-' then
      Some(-(DigitsValue(Magnitude(t)) as int))
    else
      Some(DigitsValue(Magnitude(t)))
  }

  lemma ConcatAssoc(x: string, y: string, z: string)
    ensures x + y + z == x + (y + z)
  {
  }

  /** A run of digits with an optional sign is a numeral with nothing to
      strip. */
  lemma SignedNumeral(sign: string, t: string)
    requires sign == "" || sign == "+" || sign == "-"
    requires |t| > 0 && AllDigits(t)
    ensures var m := sign + t;
            && |m| > 0 && Stripped(m) && IntLiteral(m) && Magnitude(m) == t
            && NoSeparator(m) && (m[0] == '-' <==> sign == "-")
  {
    var m := sign + t;
    assert m[|m| - 1] == t[|t| - 1];
    assert m[0] == (if sign == "" then t[0] else sign[0]);
    assert t[0] !in Whitespace && t[|t| - 1] !in Whitespace;
    if sign != "" {
      assert m[1..] == t;
    }
    assert forall k :: 0 <= k < |m| ==> m[k] == '+' || m[k] == '-' || IsDigit(m[k]);
  }

  /** The value `int()` gives for a run of digits with an optional sign and
      `int()`-whitespace around it, such as `" 4 "`, `"+4"` or `"04"`. */
  lemma ParseIntPadded(a: string, sign: string, t: string, b: string)
    requires AllIntSpace(a) && AllIntSpace(b)
    requires sign == "" || sign == "+" || sign == "-"
    requires 0 < |t| <= MaxStrDigits && AllDigits(t)
    ensures ParseInt(a + sign + t + b) == Some(if sign == "-" then -(DigitsValue(t) as int) else DigitsValue(t))
  {
    var m := sign + t;
    var s := a + m + b;
    ConcatAssoc(a, sign, t);
    SignedNumeral(sign, t);
    assert AllSpace(a) && AllSpace(b);
    StripPadded(a, m, b);
    NoSeparatorConcat(a, m);
    NoSeparatorConcat(a + m, b);
    ParseIntOfNumeral(s, sign, t);
  }

  /** A string that strips to a signed run of digits and holds no
      information separator parses to the value of those digits. */
  lemma ParseIntOfNumeral(s: string, sign: string, t: string)
    requires sign == "" || sign == "+" || sign == "-"
    requires 0 < |t| <= MaxStrDigits && AllDigits(t)
    requires Strip(s) == sign + t && NoSeparator(s)
    ensures ParseInt(s) == Some(if sign == "-" then -(DigitsValue(t) as int) else DigitsValue(t))
  {
    ParseNumeralSigned(sign, t);
    SignedNumeral(sign, t);
  }

  lemma ParseNumeralSigned(sign: string, t: string)
    requires sign == "" || sign == "+" || sign == "-"
    requires 0 < |t| <= MaxStrDigits && AllDigits(t)
    ensures ParseNumeral(sign + t) == Some(if sign == "-" then -(DigitsValue(t) as int) else DigitsValue(t))
  {
    SignedNumeral(sign, t);
  }

  /** `int(str(n)) == n`, for every integer `str()` can render. */
  lemma ParseIntOfIntToString(n: int)
    requires |NatToString(if n < 0 then -n else n)| <= MaxStrDigits
    ensures ParseInt(IntToString(n)) == Some(n)
  {
    var digits := NatToString(if n < 0 then -n else n);
    DigitsValueOfNatToString(if n < 0 then -n else n);
    var sign := if n < 0 then "-" else "";
    assert IntToString(n) == sign + digits;
    SignedNumeral(sign, digits);
    StripStripped(sign + digits);
    ParseIntOfNumeral(sign + digits, sign, digits);
  }

  /** `int()` raises on any string holding a character that is neither a
      digit, a sign nor whitespace. */
  lemma ParseIntRejectsStrayCharacter(s: string, k: int)
    requires 0 <= k < |s|
    requires !IsDigit(s[k]) && !IsSpace(s[k]) && s[k] != '+' && s[k] != '-'
    ensures ParseInt(s) == None
  {
    StripKeeps(s, k);
    NotLiteral(Strip(s), s[k]);
  }

  /** Stripping keeps every character that is not whitespace. */
  lemma StripKeeps(s: string, k: int)
    requires 0 <= k < |s| && !IsSpace(s[k])
    ensures s[k] in Strip(s)
  {
    var t := Strip(s);
    var i :| 0 <= i <= |s| - |t| && t == s[i..i + |t|]
             && AllSpace(s[..i]) && AllSpace(s[i + |t|..]);
    forall j | 0 <= j < i ensures IsSpace(s[j]) {
      assert s[..i][j] == s[j];
    }
    forall j | i + |t| <= j < |s| ensures IsSpace(s[j]) {
      assert s[i + |t|..][j - i - |t|] == s[j];
    }
    assert t[k - i] == s[k];
  }

  /** A literal holds only digits and a leading sign. */
  lemma NotLiteral(t: string, c: char)
    requires c in t && !IsDigit(c) && c != '+' && c != '-'
    ensures !IntLiteral(t)
  {
    var j :| 0 <= j < |t| && t[j] == c;
    if j > 0 {
      assert t[1..][j - 1] == c;
    }
  }
}

=== FILE: validators.dfy ===
/**
 * The four field validators of `src/utils/validators.py`. Each returns either
 * the accepted (normalised) value or the fixed Spanish error message, in the
 * order the Python code tests its conditions.
 */
module Validators {
  import opened Optional
  import opened Text

  /** The `(ok, value_or_error_message)` pair every validator returns. */
  datatype Check<T> = Valid(value: T) | Invalid(message: string)

  // ---------------------------------------------------------------------------
  // validate_rating
  // ---------------------------------------------------------------------------

  /** `validate_rating` accepts either an `int` or a `str`. */
  datatype RatingArg = IntArg(n: int) | StrArg(s: string)

  const RatingOutOfRange := "La calificación debe estar entre 1 y 5"
  const RatingNotANumber := "La calificación debe ser un número del 1 al 5"

  /** Python's `int(rating)`: the identity on an `int`, parsing on a `str`. */
  function AsInt(x: RatingArg): Option<int> {
    match x
    case IntArg(n) => Some(n)
    case StrArg(s) => ParseInt(s)
  }

  function ValidateRating(x: RatingArg): (r: Check<int>)
    ensures r.Valid? ==> 1 <= r.value <= 5
    ensures x.IntArg? ==> r == if 1 <= x.n <= 5 then Valid(x.n) else Invalid(RatingOutOfRange)
    ensures x.StrArg? && ParseInt(x.s).None? ==> r == Invalid(RatingNotANumber)
    ensures x.StrArg? && ParseInt(x.s).Some? ==>
              var n := ParseInt(x.s).value;
              r == if 1 <= n <= 5 then Valid(n) else Invalid(RatingOutOfRange)
  {
    match AsInt(x)
    case None => Invalid(RatingNotANumber)
    case Some(n) => if 1 <= n <= 5 then Valid(n) else Invalid(RatingOutOfRange)
  }

  /** A rating sent as the decimal text of any integer `str()` can render is
      judged exactly like that integer: accepted when it lies in 1..5, the
      range message otherwise. */
  lemma ValidateRatingOfNumeral(n: int)
    requires |NatToString(if n < 0 then -n else n)| <= MaxStrDigits
    ensures ValidateRating(StrArg(IntToString(n))) == ValidateRating(IntArg(n))
  {
    ParseIntOfIntToString(n);
  }

  /** A run of digits with an optional sign and `int()`-whitespace around it
      is judged like the integer it denotes. */
  lemma ValidateRatingPadded(a: string, sign: string, t: string, b: string)
    requires AllIntSpace(a) && AllIntSpace(b)
    requires sign == "" || sign == "+" || sign == "-"
    requires 0 < |t| <= MaxStrDigits && AllDigits(t)
    ensures ValidateRating(StrArg(a + sign + t + b))
            == ValidateRating(IntArg(if sign == "-" then -(DigitsValue(t) as int) else DigitsValue(t)))
  {
    ParseIntPadded(a, sign, t, b);
    ValidateRatingOfParse(a + sign + t + b);
  }

  /** Text that `int()` reads as `n` is judged like the integer `n`. */
  lemma ValidateRatingOfParse(s: string)
    requires ParseInt(s).Some?
    ensures ValidateRating(StrArg(s)) == ValidateRating(IntArg(ParseInt(s).value))
  {
  }

  /** Text holding an information separator (U+001C..U+001F) is never a
      number, although `str.strip()` would remove it. */
  lemma ValidateRatingSeparator(s: string, k: int)
    requires 0 <= k < |s| && s[k] in InfoSeparators
    ensures ValidateRating(StrArg(s)) == Invalid(RatingNotANumber)
  {
  }

  /** Text holding a character that is not a digit, a sign or whitespace is
      never a number. */
  lemma ValidateRatingNonNumeric(s: string, k: int)
    requires 0 <= k < |s|
    requires !IsDigit(s[k]) && !IsSpace(s[k]) && s[k] != '+' && s[k] != '-'
    ensures ValidateRating(StrArg(s)) == Invalid(RatingNotANumber)
  {
    ParseIntRejectsStrayCharacter(s, k);
  }

  // ---------------------------------------------------------------------------
  // validate_phone_number
  // ---------------------------------------------------------------------------

  const PhoneInvalidCharacters := "El número de teléfono contiene caracteres inválidos"
  const PhoneTooShort := "El número de teléfono es demasiado corto"

  /** The characters `re.sub(r'[\s\-\(\)]', '', phone)` deletes. */
  predicate Removable(c: char) {
    IsSpace(c) || c == '-' || c == '(' || c == ')'
  }

  /** `phone` with every removable character deleted and the rest kept in order. */
  function Clean(p: string): (r: string)
    ensures |r| <= |p|
    ensures forall i :: 0 <= i < |r| ==> !Removable(r[i])
    ensures (forall i :: 0 <= i < |p| ==> !Removable(p[i])) ==> r == p
  {
    if |p| == 0 then [] else (if Removable(p[0]) then [] else [p[0]]) + Clean(p[1..])
  }

  /** Cleaning works piece by piece: the cleaned text of `a + b` is the
      cleaned `a` followed by the cleaned `b`. */
  lemma {:induction false} CleanConcat(a: string, b: string)
    ensures Clean(a + b) == Clean(a) + Clean(b)
  {
    if |a| > 0 {
      assert (a + b)[1..] == a[1..] + b;
      CleanConcat(a[1..], b);
    } else {
      assert a + b == b;
    }
  }

  /** A single character is deleted exactly when it is removable. */
  lemma CleanOne(c: char)
    ensures Clean([c]) == if Removable(c) then [] else [c]
  {
    assert [c][1..] == [];
  }

  /** Every character that is not removable survives cleaning. */
  lemma {:induction false} CleanKeeps(p: string, k: int)
    requires 0 <= k < |p| && !Removable(p[k])
    ensures p[k] in Clean(p)
  {
    if k > 0 {
      CleanKeeps(p[1..], k - 1);
      assert p[1..][k - 1] == p[k];
    }
  }

  /** The anchored pattern `^\+?[\d]+$`. The cleaned string holds no
      whitespace, so `$` matching before a final newline never arises. */
  predicate PhonePattern(c: string): (b: bool)
    ensures b <==> && |c| > 0 && (c[0] == '+' ==> |c| > 1)
                   && forall i :: 0 <= i < |c| ==> IsDigit(c[i]) || (i == 0 && c[i] == '+')
  {
    || (|c| > 0 && AllDigits(c))
    || (|c| > 1 && c[0] == '+' && AllDigits(c[1..]))
  }

  function ValidatePhoneNumber(p: string): (r: Check<string>)
    ensures r.Valid? <==> PhonePattern(Clean(p)) && |Clean(p)| >= 10
    ensures !PhonePattern(Clean(p)) ==> r == Invalid(PhoneInvalidCharacters)
    ensures PhonePattern(Clean(p)) && |Clean(p)| < 10 ==> r == Invalid(PhoneTooShort)
    ensures r.Valid? ==> |r.value| >= 10 && r.value[0] == '+' && AllDigits(r.value[1..])
    ensures r.Valid? ==> r.value == Clean(p) || r.value == "+" + Clean(p)
  {
    var cleaned := Clean(p);
    if !PhonePattern(cleaned) then
      Invalid(PhoneInvalidCharacters)
    else if |cleaned| < 10 then
      Invalid(PhoneTooShort)
    else if cleaned[0] == '+' then
      Valid(cleaned)
    else
      assert ("+" + cleaned)[1..] == cleaned;
      Valid("+" + cleaned)
  }

  /** A character other than a digit, `+` or a removable one makes the number
      invalid, wherever it stands. */
  lemma PhoneRejectsStrayCharacter(p: string, k: int)
    requires 0 <= k < |p|
    requires !Removable(p[k]) && !IsDigit(p[k]) && p[k] != '+'
    ensures ValidatePhoneNumber(p) == Invalid(PhoneInvalidCharacters)
  {
    CleanKeeps(p, k);
    var c := Clean(p);
    var j :| 0 <= j < |c| && c[j] == p[k];
    assert !PhonePattern(c) by {
      if j > 0 {
        assert c[1..][j - 1] == c[j];
      }
    }
  }

  /** The decimal digits of `s`, in order. */
  function DigitsOf(s: string): (r: string)
    ensures AllDigits(r)
  {
    if |s| == 0 then [] else (if IsDigit(s[0]) then [s[0]] else []) + DigitsOf(s[1..])
  }

  lemma {:induction false} DigitsOfAllDigits(s: string)
    requires AllDigits(s)
    ensures DigitsOf(s) == s
  {
    if |s| > 0 {
      DigitsOfAllDigits(s[1..]);
    }
  }

  /** Removing whitespace, hyphens and parentheses keeps every digit. */
  lemma {:induction false} DigitsOfClean(p: string)
    ensures DigitsOf(Clean(p)) == DigitsOf(p)
  {
    if |p| > 0 {
      DigitsOfClean(p[1..]);
      var head := if Removable(p[0]) then [] else [p[0]];
      DigitsOfConcat(head, Clean(p[1..]));
      assert IsDigit(p[0]) ==> !Removable(p[0]) by {
        assert IsDigit(p[0]) ==> p[0] !in Whitespace;
      }
    }
  }

  lemma {:induction false} DigitsOfConcat(a: string, b: string)
    ensures DigitsOf(a + b) == DigitsOf(a) + DigitsOf(b)
  {
    if |a| > 0 {
      assert (a + b)[1..] == a[1..] + b;
      DigitsOfConcat(a[1..], b);
    } else {
      assert a + b == b;
    }
  }

  /** An accepted phone number is `+` followed by exactly the digits of the
      input, in their original order. */
  lemma PhoneKeepsDigits(p: string)
    requires ValidatePhoneNumber(p).Valid?
    ensures ValidatePhoneNumber(p).value == "+" + DigitsOf(p)
  {
    var c := Clean(p);
    DigitsOfClean(p);
    if c[0] == '+' {
      DigitsOfAllDigits(c[1..]);
      assert c == [c[0]] + c[1..];
      DigitsOfConcat([c[0]], c[1..]);
    } else {
      DigitsOfAllDigits(c);
    }
  }

  /** Normalisation is idempotent: an accepted number is accepted again,
      unchanged. */
  lemma PhoneIdempotent(p: string)
    requires ValidatePhoneNumber(p).Valid?
    ensures ValidatePhoneNumber(ValidatePhoneNumber(p).value) == ValidatePhoneNumber(p)
  {
    var v := ValidatePhoneNumber(p).value;
    forall i | 0 <= i < |v| ensures !Removable(v[i]) {
      if i > 0 {
        assert IsDigit(v[1..][i - 1]);
        assert v[i] !in Whitespace;
      }
    }
    assert Clean(v) == v;
  }

  // ---------------------------------------------------------------------------
  // validate_place_name and validate_review_text
  // ---------------------------------------------------------------------------

  /** Length bounds on the stripped text, with the message for each way of
      missing them. */
  datatype Bounds = Bounds(min: nat, max: nat, empty: string, short: string, long: string)

  const PlaceBounds := Bounds(2, 100,
    "El nombre del lugar no puede estar vacío",
    "El nombre del lugar es demasiado corto",
    "El nombre del lugar es demasiado largo")

  const ReviewBounds := Bounds(10, 1000,
    "El texto de la reseña no puede estar vacío",
    "La reseña debe tener al menos 10 caracteres",
    "La reseña es demasiado larga (máximo 1000 caracteres)")

  /** The shape shared by both text validators: reject empty or blank input,
      then a stripped text that is too short, then one that is too long, and
      otherwise return the stripped text. */
  function ValidateStripped(s: string, b: Bounds): (r: Check<string>)
    requires 0 < b.min <= b.max
    ensures r.Valid? <==> b.min <= |Strip(s)| <= b.max
    ensures r.Valid? ==> r.value == Strip(s) && Stripped(r.value)
    ensures AllSpace(s) ==> r == Invalid(b.empty)
    ensures 0 < |Strip(s)| < b.min ==> r == Invalid(b.short)
    ensures |Strip(s)| > b.max ==> r == Invalid(b.long)
  {
    if |s| == 0 || |Strip(s)| == 0 then
      Invalid(b.empty)
    else
      var cleaned := Strip(s);
      if |cleaned| < b.min then Invalid(b.short)
      else if |cleaned| > b.max then Invalid(b.long)
      else Valid(cleaned)
  }

  function ValidatePlaceName(s: string): (r: Check<string>)
    ensures r.Valid? <==> 2 <= |Strip(s)| <= 100
    ensures r.Valid? ==> r.value == Strip(s)
    ensures AllSpace(s) ==> r == Invalid("El nombre del lugar no puede estar vacío")
    ensures 0 < |Strip(s)| < 2 ==> r == Invalid("El nombre del lugar es demasiado corto")
    ensures |Strip(s)| > 100 ==> r == Invalid("El nombre del lugar es demasiado largo")
  {
    ValidateStripped(s, PlaceBounds)
  }

  function ValidateReviewText(s: string): (r: Check<string>)
    ensures r.Valid? <==> 10 <= |Strip(s)| <= 1000
    ensures r.Valid? ==> r.value == Strip(s)
    ensures AllSpace(s) ==> r == Invalid("El texto de la reseña no puede estar vacío")
    ensures 0 < |Strip(s)| < 10 ==> r == Invalid("La reseña debe tener al menos 10 caracteres")
    ensures |Strip(s)| > 1000 ==> r == Invalid("La reseña es demasiado larga (máximo 1000 caracteres)")
  {
    ValidateStripped(s, ReviewBounds)
  }

  /** Text that already has no surrounding whitespace and fits the bounds is
      returned unchanged, and whatever is accepted is accepted again as is. */
  lemma ValidateStrippedIdempotent(s: string, b: Bounds)
    requires 0 < b.min <= b.max
    requires ValidateStripped(s, b).Valid?
    ensures ValidateStripped(ValidateStripped(s, b).value, b) == ValidateStripped(s, b)
  {
    StripIdempotent(s);
  }

  lemma ValidateStrippedKeepsTrimmedText(s: string, b: Bounds)
    requires 0 < b.min <= b.max
    requires Stripped(s) && b.min <= |s| <= b.max
    ensures ValidateStripped(s, b) == Valid(s)
  {
    StripStripped(s);
  }
}

=== FILE: vectors.dfy ===
/**
 * The cases pinned by `tests/test_validators.py`, each derived from the
 * validators' general contracts and lemmas.
 */
module ValidatorVectors {
  import opened Text
  import opened Validators

  lemma RatingVectors()
    ensures ValidateRating(IntArg(1)) == Valid(1)
    ensures ValidateRating(IntArg(5)) == Valid(5)
    ensures ValidateRating(StrArg("3")) == Valid(3)
    ensures ValidateRating(IntArg(0)) == Invalid("La calificación debe estar entre 1 y 5")
    ensures ValidateRating(IntArg(6)) == Invalid("La calificación debe estar entre 1 y 5")
    ensures ValidateRating(StrArg("abc")) == Invalid("La calificación debe ser un número del 1 al 5")
  {
    assert IntToString(3) == "3";
    ValidateRatingOfNumeral(3);
    ValidateRatingNonNumeric("abc", 0);
  }

  // Ratings sent as text in forms other than `str(n)`: padding and a plus
  // sign are accepted and a leading zero is read as decimal, while an
  // information separator in the padding makes `int()` fail.

  lemma RatingPaddedVector()
    ensures ValidateRating(StrArg(" 4 ")) == Valid(4)
  {
    assert DigitsValue("4") == 4;
    assert ' ' in IntWhitespace;
    var s := " " + "" + "4" + " ";
    assert s == " 4 ";
    ValidateRatingPadded(" ", "", "4", " ");
    assert ValidateRating(StrArg(s)) == ValidateRating(IntArg(4)) == Valid(4);
  }

  lemma RatingPlusVector()
    ensures ValidateRating(StrArg("+4")) == Valid(4)
  {
    assert DigitsValue("4") == 4;
    ValidateRatingPadded("", "+", "4", "");
    assert "" + "+" + "4" + "" == "+4";
  }

  lemma RatingLeadingZeroVector()
    ensures ValidateRating(StrArg("04")) == Valid(4)
  {
    assert DigitsValue("04") == 4 by {
      assert "04"[..1] == "0";
    }
    ValidateRatingPadded("", "", "04", "");
    assert "" + "" + "04" + "" == "04";
  }

  lemma RatingSeparatorVector()
    ensures ValidateRating(StrArg("\U{1C}4")) == Invalid("La calificación debe ser un número del 1 al 5")
  {
    ValidateRatingSeparator("\U{1C}4", 0);
  }

  /** A run of digits is left alone by the cleaning step. */
  lemma CleanDigits(s: string)
    requires AllDigits(s)
    ensures Clean(s) == s
  {
    forall i | 0 <= i < |s| ensures !Removable(s[i]) {
      assert s[i] !in Whitespace;
    }
  }

  lemma PhoneWithPlus()
    ensures ValidatePhoneNumber("+1234567890") == Valid("+1234567890")
  {
    var p := "+1234567890";
    var d := p[1..];
    assert AllDigits(d);
    CleanDigits(d);
    assert p == [p[0]] + d;
    assert !Removable(p[0]);
    assert PhonePattern(p) && |p| == 11;
  }

  lemma PhoneWithoutPlus(p: string)
    requires p == "1234567890"
    ensures ValidatePhoneNumber(p) == Valid("+1234567890")
  {
    assert AllDigits(p);
    CleanDigits(p);
    assert PhonePattern(p) && |p| == 10 && p[0] != '+';
    assert "+" + p == "+1234567890";
  }

  lemma PhoneTooShortVector()
    ensures ValidatePhoneNumber("123") == Invalid("El número de teléfono es demasiado corto")
  {
    var p := "123";
    assert AllDigits(p);
    CleanDigits(p);
  }

  lemma PhoneLettersVector()
    ensures ValidatePhoneNumber("abc123") == Invalid("El número de teléfono contiene caracteres inválidos")
  {
    var p := "abc123";
    assert p[1..] == "bc123";
    assert !Removable('a');
    assert Clean(p)[0] == 'a';
  }

  lemma PlaceVectors()
    ensures ValidatePlaceName("Restaurante ABC") == Valid("Restaurante ABC")
    ensures ValidatePlaceName("") == Invalid("El nombre del lugar no puede estar vacío")
    ensures ValidatePlaceName("A") == Invalid("El nombre del lugar es demasiado corto")
  {
    StripStripped("Restaurante ABC");
    StripStripped("A");
  }

  lemma PlacePaddedVector()
    ensures ValidatePlaceName("  Café XYZ  ") == Valid("Café XYZ")
  {
    var p := "  Café XYZ  ";
    assert p == "  " + "Café XYZ" + "  ";
    var m := "Café XYZ";
    assert AllSpace("  ") && Stripped(m);
    StripPadded("  ", m, "  ");
  }

  lemma ReviewVectors(t: string)
    requires t == "Excelente " + "servicio y comida deliciosa. " + "Muy recomendado!"
    ensures ValidateReviewText(t) == Valid(t)
    ensures ValidateReviewText("") == Invalid("El texto de la reseña no puede estar vacío")
    ensures ValidateReviewText("Bueno") == Invalid("La reseña debe tener al menos 10 caracteres")
  {
    assert t[0] == 'E' && t[|t| - 1] == '!';
    StripStripped(t);
    StripStripped("Bueno");
  }
}
